=== FILE: README.md ===
# Skanda AI: a Dafny model of the capture, transcription and chat core

Skanda AI is a desktop assistant with three parts:

- An Electron process (`desktop/index.js`) captures microphone and system
  audio with ffmpeg. It streams the audio to the backend over Socket.IO and
  relays global keyboard shortcuts to the renderer.
- A Flask/Socket.IO backend keeps one session record per connected client
  (`backend/server.py`). Each session has a worker thread that repeatedly
  re-transcribes a sliding 30-second window of audio
  (`backend/transcribe.py`). The backend also proxies chat requests to a
  language model as a server-sent-event stream (`backend/ai_model.py`) and
  extracts JSON from a vision model's reply (`backend/screen_analyser.py`).
- A Next.js front end contains:
  - the chat page (`frontend/src/app/page.tsx`);
  - the input bar with its recording state machine and screen-aware
    message composer (`InputText.tsx`);
  - the pause/delete controls (`AudioControls.tsx`);
  - the toggle header that turns window settings and shortcuts on and off
    (`ToggleHeader.tsx`).

The model is a set of pure functions over immutable datatypes, with one
Dafny module per source file:

- `Wrappers` holds `Option`, and `Text` holds whitespace trimming, `indexOf`,
  `split`, `replace` and `join`.
- `SessionStore` (server.py), `Transcriber` (transcribe.py),
  `ScreenAnalyser` (screen_analyser.py), `EventStream` (the event-stream
  format that ai_model.py writes and the browser reads), `AiModel`
  (ai_model.py), `ChatPage` (page.tsx), `InputText`, `AudioControls`,
  `ToggleHeader` and `DesktopCapture` (index.js) model the source files.
- `Pipeline` holds the properties that span several components.

External services become parameters:

- the speech recognizer is a function from audio bytes to segments or an
  error;
- `json.loads` is a function from text to an optional value;
- the language model is the sequence of deltas it produced and the
  exception that ended it;
- thread liveness, socket connectivity and shortcut registration are
  boolean observations or predicates.

Handlers run as a sequential interleaving of transitions. Locks, timers and
the current ffmpeg process are flags. A killed process stays on a list
until its `close` event fires, together with whether its `close` listener
is still attached. A close that arrives after a new capture started is
therefore its own step.

## Model

| member | source | states |
|---|---|---|
| SessionStore.OnConnect | backend/server.py:40-51 | a connecting session gets an empty buffer, both flags clear and no worker; every other session is untouched |
| SessionStore.OnStartStream | backend/server.py:54-68 | a session that never connected raises; otherwise its buffer and flags are reset, and a worker is spawned exactly when none exists or the old one is dead |
| SessionStore.OnPauseStream | backend/server.py:71-78 | only the `paused` flag of a known session changes; an unknown session leaves the table as it was |
| SessionStore.OnResumeStream | backend/server.py:81-88 | only `paused` of a known session is cleared; unknown sessions are ignored |
| SessionStore.OnClearStream | backend/server.py:91-99 | a known session's buffer is emptied and `paused` cleared, while `stopped` and the worker are kept |
| SessionStore.OnAudioChunk | backend/server.py:102-111 | intended handler: binary data for a known session is appended to its buffer; non-binary data and unknown sessions change nothing |
| SessionStore.OnAudioChunkAsWritten | backend/server.py:104 | as written, the handler never changes the table, because reading `request.sids` raises before anything else runs |
| SessionStore.AudioChunkTypoDropsAudio | backend/server.py:102-111 | for every known session and non-empty chunk, the as-written handler and the intended handler disagree |
| SessionStore.OnStopStream | backend/server.py:114-120 | only `stopped` of a known session is set |
| SessionStore.OnDisconnect | backend/server.py:123-139 | a known session is marked stopped and its cleanup is scheduled exactly when it is known |
| SessionStore.Cleanup | backend/server.py:131-138 | after the delayed cleanup the session is gone and all others are untouched; cleaning up an absent session is a no-op |
| SessionStore.UnknownSessionUnchanged | backend/server.py:71-139 | every handler except `connect` leaves the table unchanged for a session it does not know |
| SessionStore.PauseResumeIdempotent | backend/server.py:71-88 | pausing twice is pausing once, and resuming twice is resuming once |
| SessionStore.SecondStartKeepsWorker | backend/server.py:63-68 | a second `start_stream` while the first worker is alive spawns no second worker |
| SessionStore.AudioChunksAppend | backend/server.py:102-111 | after any sequence of binary chunks, the buffer is the old buffer followed by the chunks in arrival order, with flags, worker and other sessions unchanged |
| Transcriber.AnalyzeAudioBuffer | backend/transcribe.py:20-45 | empty audio yields the empty text without consulting the model; otherwise the result fails exactly when the model fails, and is the whitespace trim of the segments joined by spaces |
| Transcriber.FullTextUncommitted | backend/transcribe.py:116 | with no committed text, the emitted transcript is the window text itself |
| Transcriber.TranscriptionPass | backend/transcribe.py:111-141 | corrected (a mutable buffer): empty or failed recognition changes nothing; with text, the buffer is cut to its last 960000 bytes, and a transcript is emitted exactly when it differs from the last one emitted, which it then becomes |
| Transcriber.Step | backend/transcribe.py:55-154 | corrected (uses the corrected pass): one loop iteration: a missing session ends the worker; pausing wins over stopping; an empty buffer is never transcribed; a session with audio emits exactly what the recognition pass over its buffer emits, so new non-empty text is emitted and repeated text is not; a running session keeps the pass's buffer and a stopped one ends with an empty buffer; only this session's buffer changes, and what remains is a suffix of it |
| Transcriber.EmittedNonEmpty | backend/transcribe.py:114-141 | with nothing committed, an emitted transcript is never empty |
| Transcriber.TranscriptionPassAsWritten | backend/transcribe.py:128-141 | as written, a pass over an immutable `bytes` buffer longer than the window neither trims it nor emits, because deleting its prefix raises; any other pass is the corrected one |
| Transcriber.OversizedBufferSilenced | backend/transcribe.py:128-141 | for new text over an oversized `bytes` buffer, the as-written pass emits nothing and keeps the buffer, while the corrected pass emits the text and cuts the buffer to 960000 bytes |
| Transcriber.NoDuplicateEmission | backend/transcribe.py:139-141 | two consecutive passes recognizing the same text emit at most once |
| Transcriber.RecognizerFailureContinues | backend/transcribe.py:105-154 | a recognizer exception leaves a running session's worker sleeping, with buffer and locals untouched |
| Transcriber.DrainOnStop | backend/transcribe.py:92-151 | a stopped, unpaused session ends its worker on the next iteration, after exactly one pass if it held audio, and leaves an empty buffer |
| Transcriber.RunWorker | backend/transcribe.py:55-154 | the loop run for up to `fuel + 1` iterations with no handler in between, reporting only the last iteration's emission: only this session's buffer changes, what remains is a suffix of it, and the committed text is kept; DrainOnStop and PausedNeverEmits characterise its exits |
| Transcriber.PausedNeverEmits | backend/transcribe.py:88-90 | however long it runs, the worker of a paused session never recognizes, emits or changes the table |
| ScreenAnalyser.ScanFromSpec | backend/screen_analyser.py:64-82 | the brace scan tries exactly the top-level balanced `{...}` spans in order of their closing brace and returns the first that parses |
| ScreenAnalyser.FindSpan | backend/screen_analyser.py:64-82 | the span found is top-level, balanced and parses, and no earlier-closing span parses; when none is found, no span parses |
| ScreenAnalyser.ExtractJsonFromText | backend/screen_analyser.py:52-82 | the stripped text is returned if it parses as a whole; otherwise the first parsing top-level span; `None` only when neither the whole nor any span parses |
| ScreenAnalyser.NoBraceNoJson | backend/screen_analyser.py:64-82 | text without any `{` that does not parse as a whole yields nothing |
| ScreenAnalyser.NestedNotCandidate | backend/screen_analyser.py:68-71 | a brace opened inside another object never starts a candidate |
| ScreenAnalyser.AnalysisFromText | backend/screen_analyser.py:128-135 | the reply is the error payload `JSON_PARSE_FAILED` with the raw text exactly when extraction yields nothing, and the parsed value otherwise |
| EventStream.FrameAsWritten | backend/ai_model.py:60 | as written: one `data:` line holding the whole delta, then a blank line; characterised by MultiLineDeltaTruncated and FrameSingleLine |
| EventStream.Frame | backend/ai_model.py:60 | corrected: one `data:` line per line of the delta, then a blank line; characterised by FrameRoundTrip and FramesRoundTrip |
| EventStream.FrameRoundTrip | backend/ai_model.py:57-60 | a corrected frame of a CR-free delta is read back by an event-stream receiver as exactly that delta, as one event |
| EventStream.FramesRoundTrip | backend/ai_model.py:57-62 | a sequence of corrected frames reads back as exactly its payloads, in order |
| EventStream.FrameSingleLine | backend/ai_model.py:60 | for a delta without LF, the corrected framing is the framing as written |
| EventStream.FramesSingleLine | backend/ai_model.py:57-62 | a stream of deltas without LF is framed identically as written and corrected |
| EventStream.MultiLineDeltaTruncated | backend/ai_model.py:60 | as written, a two-line delta reads back as its first line only; corrected, it reads back whole |
| EventStream.MultiLineDeltaExample | backend/ai_model.py:60 | the delta "a\nb" arrives as "a" |
| EventStream.FirstEventAsWritten | backend/ai_model.py:57-62 | whatever follows, the first event of an as-written stream starting with a two-line delta holds only the first line |
| EventStream.EventsOnlyGrow | backend/ai_model.py:57-66 | a receiver never withdraws a dispatched event |
| AiModel.EffectiveMessages | backend/ai_model.py:29 | a missing, null or empty `messages` list becomes a single user message holding `message` (default empty); otherwise the list is taken as is |
| AiModel.NormalizeMessages | backend/ai_model.py:27-38 | the output is the system prompt followed by every message with role defaulting to `user` and content to empty, and the prior reasoning is that of the last assistant message carrying `reasoning_details` |
| AiModel.NoReasoningNoPrior | backend/ai_model.py:36-37 | without any `reasoning_details` there is no prior reasoning |
| AiModel.ExtraBody | backend/ai_model.py:44-46 | reasoning is always enabled, and the prior reasoning is passed on exactly when it is truthy |
| AiModel.NonEmptyDeltas | backend/ai_model.py:57-59 | only present, non-empty deltas are forwarded, and every one of them is |
| AiModel.NonEmptyDeltasAppend | backend/ai_model.py:57-59 | forwarding distributes over concatenation, so deltas are forwarded in arrival order and as often as they arrive |
| AiModel.NonEmptyDeltasSingle | backend/ai_model.py:58-59 | one chunk is forwarded as its delta exactly when the delta is present and non-empty, and dropped otherwise |
| AiModel.EventPayloads | backend/ai_model.py:57-66 | the events are the forwarded deltas followed by `[DONE]` after completion, or by `[ERROR] <message>` after an exception |
| AiModel.ResponseBodyAsWritten | backend/ai_model.py:57-66 | as written: the event payloads, each framed on one `data:` line; characterised by ResponseAsWrittenRoundTrip and FirstPayloadTruncated |
| AiModel.ResponseBody | backend/ai_model.py:57-66 | corrected: the event payloads framed line by line; characterised by ResponseRoundTrip |
| AiModel.ResponseRoundTrip | backend/ai_model.py:57-66 | with corrected framing, the browser parses exactly the forwarded deltas, in order, then the completion or error marker |
| AiModel.ResponseAsWrittenRoundTrip | backend/ai_model.py:57-66 | as written, a stream whose deltas and error message have no line break reads back as exactly the forwarded deltas, in order, then the marker |
| AiModel.FirstPayloadTruncated | backend/ai_model.py:60 | as written, when the first delta spans two lines the browser's first event holds only its first line, whatever follows |
| AiModel.ResponseAsWrittenLosesLines | backend/ai_model.py:60 | with framing as written, a one-delta stream "a\nb" does not read back as its payloads |
| AiModel.GenerateChatResponse | backend/ai_model.py:40-66 | as written: the model defaults to the configured one, the messages and reasoning options are those above, a stream without line breaks reads back as its payloads, and a first delta of two lines reads back as its first line only |
| AiModel.GenerateChatResponseCorrected | backend/ai_model.py:40-66 | with multi-line deltas framed line by line: the same request, and a CR-free stream reads back as its payloads |
| ChatPage.UpdateLastAiMessage | frontend/src/app/page.tsx:30-45 | the chunk is appended to the last message when it is the AI's, and nothing else changes; otherwise the list is unchanged |
| ChatPage.UpdateAllIsConcat | frontend/src/app/page.tsx:30-45 | appending chunks one by one equals appending their concatenation |
| ChatPage.DisplayFromRaw | frontend/src/app/page.tsx:62-65 | with no typed text, the trimmed part after `USER QUERY:` when it is not blank, otherwise the whole message; characterised by DisplayShowsQuery and SendDisplay |
| ChatPage.DisplayShowsQuery | frontend/src/app/page.tsx:62-65 | a message `<context>USER QUERY:<query>` with one marker and a non-blank query is displayed as the trimmed query |
| ChatPage.RequestMessages | frontend/src/app/page.tsx:85-100 | the request is the screen context as a system message when there is one, then every earlier message with its role renamed, then the new user message |
| ChatPage.Send | frontend/src/app/page.tsx:55-100 | a blank message is ignored; otherwise exactly a user bubble (the typed text when present) and an empty AI bubble are appended, the user bubble resends exactly the trimmed message, the input is cleared, and the request is built from the history before the send |
| ChatPage.SendDisplay | frontend/src/app/page.tsx:59-65 | with an empty input box the bubble shows the text derived from the sent message alone |
| ChatPage.SendWithScreenContext | frontend/src/app/page.tsx:172-176 | the context and query are joined around the marker and sent; the context is stored, but this request carries the context held before |
| ChatPage.ClassifyAsWritten | frontend/src/app/page.tsx:111-121 | as written: exactly the non-empty data other than `[DONE]` and the bare `[ERROR]` is appended unchanged; only the bare `[ERROR]` raises, and with `[ERROR]` itself as message |
| ChatPage.Classify | frontend/src/app/page.tsx:111-121 | corrected: data raises exactly when it starts with `[ERROR]`, and `[ERROR] m` raises `m`; other non-empty, non-`[DONE]` data is appended unchanged |
| ChatPage.ErrorEventShownAsText | frontend/src/app/page.tsx:116-119 | the backend's error event is shown as chat text as written and raised as an error once corrected |
| ChatPage.Receive | frontend/src/app/page.tsx:111-160 | consuming a response never changes the input, the screen context or the number of messages, and always ends with loading off |
| ChatPage.ReceiveAppends | frontend/src/app/page.tsx:111-121 | a response that raises nothing extends the last AI message by the concatenation of its text chunks |
| ChatPage.ErrorNote | frontend/src/app/page.tsx:135 | the appended `**Error:**` note carries the error message, or the fallback when the message is empty; characterised by ReceiveThenRaise |
| ChatPage.AfterStreamError | frontend/src/app/page.tsx:128-154 | an error raised while streaming appends the `onerror` note (fallback "Connection failed") and then the `catch` note (fallback "Unknown error"); characterised by ReceiveThenRaise and ResponseReachesChat |
| ChatPage.ReceiveThenRaise | frontend/src/app/page.tsx:116-153 | text followed by an error shows the text and then the notes of `onerror` and of the request's `catch` |
| ChatPage.CancelStream | frontend/src/app/page.tsx:163-170 | with a live request, loading stops and the cancellation note is appended; otherwise nothing changes |
| ChatPage.ClearChatMessages | frontend/src/app/page.tsx:178-187 | clearing returns the page to its initial state |
| ChatPage.RegenerateResponse | frontend/src/app/page.tsx:189-206 | only a user message can be regenerated; the list is cut back to the messages before it, and its raw input (or text) is resent |
| ChatPage.LastUserIndex | frontend/src/app/page.tsx:221-234 | the index found is a user message with only AI messages after it; none is found only when there is no user message |
| ChatPage.ReloadLastMessage | frontend/src/app/page.tsx:210-236 | a reload in progress does nothing; otherwise the last user message is regenerated and the lock is taken exactly when one exists |
| ChatPage.RegenerateResendsSent | frontend/src/app/page.tsx:55-206 | regenerating the bubble a send added resends exactly the trimmed message that was sent |
| ToggleHeader.IsSelected | frontend/src/components/ToggleHeader.tsx:17 | a value is selected exactly when it is in the list; characterised by ToggleFlips and ToggleTwice |
| ToggleHeader.Toggle | frontend/src/components/ToggleHeader.tsx:53-62 | removes the value when present and appends it otherwise; characterised by ToggleFlips, ToggleKeepsOthers and ToggleTwice |
| ToggleHeader.Remove | frontend/src/components/ToggleHeader.tsx:57 | the filter removes every occurrence of the value and keeps all other values |
| ToggleHeader.RemoveConcat | frontend/src/components/ToggleHeader.tsx:57 | filtering distributes over concatenation, so the kept values keep their relative order and multiplicity |
| ToggleHeader.RemoveSingle | frontend/src/components/ToggleHeader.tsx:57 | a single value is dropped exactly when it is the removed one |
| ToggleHeader.ToggleFlips | frontend/src/components/ToggleHeader.tsx:53-62 | a shortcut toggle flips the membership of its own value and of no other |
| ToggleHeader.ToggleKeepsOthers | frontend/src/components/ToggleHeader.tsx:53-62 | the other selected values keep their relative order |
| ToggleHeader.ToggleTwice | frontend/src/components/ToggleHeader.tsx:53-77 | toggling twice restores the selection as a set, and the list itself when the value was absent |
| ToggleHeader.HandleCommand | frontend/src/components/ToggleHeader.tsx:49-140 | only the invisibility and taskbar shortcuts change the selection; every other command calls at most one global, and only a global that is defined |
| ToggleHeader.GlobalIfPresent | frontend/src/components/ToggleHeader.tsx:83-86 | a global is called exactly when it is defined on the window |
| ToggleHeader.ShortcutFlipsOneSetting | frontend/src/components/ToggleHeader.tsx:20-77 | the invisibility shortcut flips invisibility and no other window setting; the taskbar shortcut likewise flips only the taskbar setting |
| AudioControls.HandlePausePlayToggle | frontend/src/components/AudioControls.tsx:63-86 | not recording does nothing; recording reports the flipped paused state first, and then pauses or resumes through the bridge when the bridge exists |
| AudioControls.HandleDelete | frontend/src/components/AudioControls.tsx:88-101 | while recording, the bridge's delete (when the bridge exists) comes before the parent's notice, which is given either way; otherwise nothing happens |
| AudioControls.HandleCommand | frontend/src/components/AudioControls.tsx:24-61 | both shortcuts act only while recording in an audio mode, and other commands are ignored |
| AudioControls.ToggleTwiceRestores | frontend/src/components/AudioControls.tsx:63-86 | two toggles, with the reported state fed back, restore the paused state, and with the bridge they pause and resume once each |
| InputText.ToggleRecording | frontend/src/components/InputText.tsx:200-225 | keyboard mode or a missing bridge does nothing; otherwise recording starts in the current mode with cleared error and transcripts, or stops |
| InputText.HandleModeChange | frontend/src/components/InputText.tsx:227-242 | a running recording is stopped first; the new mode is set with error, pending and committed text cleared, and the input kept |
| InputText.StartStopEndsIdle | frontend/src/components/InputText.tsx:200-225 | starting and then stopping sends start then stop and ends idle and unpaused |
| InputText.OnText | frontend/src/components/InputText.tsx:80-85 | a transcript replaces the input, the committed text and the pending message |
| InputText.OnFinal | frontend/src/components/InputText.tsx:88-93 | a final transcript is appended, space-separated, to the input and the committed text, and the committed text becomes pending |
| InputText.FinalsJoin | frontend/src/components/InputText.tsx:88-93 | non-empty finals received after a start accumulate to their space-separated join |
| InputText.OnError | frontend/src/components/InputText.tsx:96-103 | an error is shown and recording is considered stopped |
| InputText.HandleDeleteAudio | frontend/src/components/InputText.tsx:250-255 | deleting the audio clears the input, the pending message and the committed text |
| InputText.Bounded | frontend/src/components/InputText.tsx:339-345 | the cut-down analysis holds at most 500 OCR characters, 3 actions and 5 element types |
| InputText.ContextLines | frontend/src/components/InputText.tsx:338-346 | five lines, each empty when its field is missing or empty; characterised by ContextIsBounded |
| InputText.ScreenContext | frontend/src/components/InputText.tsx:336-347 | the `SCREEN ANALYSIS CONTEXT` template around those five lines; characterised by ContextIsBounded and ComposeOutgoing |
| InputText.ContextIsBounded | frontend/src/components/InputText.tsx:336-347 | the screen context reads nothing beyond those limits |
| InputText.ComposeOutgoing | frontend/src/components/InputText.tsx:313-395 | without the screen reader the message is sent plainly (no argument when blank); a failed analysis sends the failure note with the query; otherwise the page's screen send gets the context and trimmed query, or the combined text uses the describe prompt when the query is blank |
| InputText.QueryAlwaysForwarded | frontend/src/components/InputText.tsx:313-377 | with the screen reader on, a non-blank query is never dropped |
| DesktopCapture.IfConnected | desktop/index.js:303-305 | a signal reaches the backend exactly when the socket is connected |
| DesktopCapture.AudioPause | desktop/index.js:291-309 | only a running, unpaused capture is paused and announces it |
| DesktopCapture.AudioResume | desktop/index.js:311-329 | only a running, paused capture is resumed and announces it |
| DesktopCapture.PauseResumeIdempotent | desktop/index.js:291-329 | a second pause or resume changes nothing and emits nothing; pausing and resuming a running capture returns to unpaused |
| DesktopCapture.TogglePauseResume | desktop/index.js:268-282 | the `toggle-audio-pause-resume` IPC handler flips the paused flag of a running capture and emits the matching signal, and does nothing without a process |
| DesktopCapture.OnFfmpegClose | desktop/index.js:505-513 | the `close` listener forgets the current process, and `stop_stream` is emitted exactly when connected and not clearing |
| DesktopCapture.Kill | desktop/index.js:348-358 | a killed process is forgotten at once and its close is still to come, with the listener attached unless it was removed first |
| DesktopCapture.OnKilledClose | desktop/index.js:505-513 | a killed process's close leaves the pending list; with its listener removed it does nothing, otherwise it forgets the current process and emits `stop_stream` exactly when connected and not clearing |
| DesktopCapture.FfmpegArgs | desktop/index.js:433-484 | exactly the three known modes have arguments; all end with 16 kHz mono s16le output, and only `both` mixes two inputs |
| DesktopCapture.StartAudioCapture | desktop/index.js:420-525 | a running process is killed with its listener attached; a known mode starts a process and announces `start_stream` when connected; an unknown mode fails with no process and no signal |
| DesktopCapture.AudioStart | desktop/index.js:595-617 | the mode is remembered, a running process is killed with its listener attached, and failure is reported exactly for an unknown mode |
| DesktopCapture.AudioDelete | desktop/index.js:331-379 | `clear_stream` is emitted when connected and `stop_stream` never is; a running capture with a mode is killed with its close listener removed, and stays marked as clearing until its restart |
| DesktopCapture.RestartAfterClear | desktop/index.js:361-373 | the restart ends the clearing state and emits neither stop nor clear |
| DesktopCapture.ClearNeverStops | desktop/index.js:331-379 | over a whole clear the backend is never told the stream stopped: the killed process's close does nothing whether it fires before or after the restart, and leaves the restarted process in place |
| DesktopCapture.ListeningCloseForgetsCurrent | desktop/index.js:505-513 | a process that `audio-start` killed with its listener attached, closing after the new capture started, forgets the new process and sends `stop_stream` |
| DesktopCapture.AudioStopAsWritten | desktop/index.js:619-636 | as written, stopping emits `stop_stream` when connected, kills the process with its listener attached and forgets the mode, but keeps the paused flag |
| DesktopCapture.AudioStop | desktop/index.js:619-636 | corrected: stopping also resets the paused flag |
| DesktopCapture.PauseLostAfterPausedStop | desktop/index.js:291-309 | as written, after a paused capture is stopped and a new one started, pausing the new one sends nothing |
| DesktopCapture.PauseAfterStopReachesBackend | desktop/index.js:291-309 | with the corrected stop, the new capture's pause reaches the backend |
| DesktopCapture.RegisterShortcuts | desktop/index.js:132-151 | registration keeps the existing list as a prefix, adds only accepted table entries, never duplicates an accelerator, and registers every accepted entry |
| DesktopCapture.UnregisterShortcuts | desktop/index.js:159-171 | after unregistering no accelerator is registered |
| DesktopCapture.ToggleCommands | desktop/index.js:219-227 | enabling registers every accepted shortcut of the table without duplicates; disabling leaves none |
| DesktopCapture.RegisterTwiceAddsNothing | desktop/index.js:132-151 | enabling commands a second time registers nothing new |
| DesktopCapture.Resize | desktop/index.js:46-67 | the height is clamped to the work area, the width passes through, and bounds are set only when the clamped height differs from the current one |
| DesktopCapture.ResizeSettles | desktop/index.js:46-67 | repeating an applied resize request changes nothing |
| Text.Trim | backend/transcribe.py:45 | the result is the input with its leading and trailing whitespace removed |
| Text.TrimOfIsTrim | backend/transcribe.py:45 | that description admits exactly one result |
| Text.TrimEmptyIffBlank | frontend/src/app/page.tsx:57 | trimming yields the empty string exactly for whitespace-only input |
| Text.SecondSegment | frontend/src/app/page.tsx:64 | `split(sep)[1]` exists exactly when the separator occurs; it starts right after the first occurrence and runs up to the next occurrence, or to the end when there is none |
| Text.IndexOf | frontend/src/app/page.tsx:63 | the first occurrence at or after the start position, or none at all |
| Text.ReplaceFirst | frontend/src/app/page.tsx:119 | without an occurrence the text is unchanged; otherwise the first occurrence, wherever it is, is replaced once |
| Text.ReplaceFirstAt | frontend/src/app/page.tsx:119 | for any position that is the first occurrence, the replacement is made there and only there |
| Pipeline.PauseButtonSilencesWorker | frontend/src/components/AudioControls.tsx:63-86 | pressing pause while recording pauses the capture, marks the server session paused, and from then on its worker emits nothing |
| Pipeline.DeleteButtonClearsSession | frontend/src/components/AudioControls.tsx:88-101 | pressing delete while recording sends only `clear_stream`; the server empties and unpauses the session, and a running session's worker goes on sleeping instead of exiting |
| Pipeline.ResponseReachesChat | frontend/src/app/page.tsx:111-153 | with both fixes (line-by-line framing and the corrected handler), a completed response extends the AI bubble by exactly the forwarded deltas, and a failed one adds the two error notes after them |
| Pipeline.FailedResponseShownAsText | frontend/src/app/page.tsx:116-119 | as written on both ends, a failed response of single-line deltas ends up in the AI bubble as the deltas followed by the literal `[ERROR] <message>` |
| Pipeline.RequestForwarded | backend/ai_model.py:27-46 | the backend forwards the page's messages unchanged after its system prompt and never receives earlier reasoning from this page |
| Pipeline.TrimAroundMarker | frontend/src/app/page.tsx:60 | trimming a marked message strips only the outer whitespace of its two parts |
| Pipeline.MarkedMessageShowsQuery | frontend/src/app/page.tsx:55-69 | a marked message sent from an empty input box is shown as the trimmed query |

## Left out

- Networking, threads, locks, timers, logging, process signals, React
  rendering, toasts, the Electron window API and the screenshot capture
  (`capture-screenshot`) are left out. They do not change the modelled
  state.
- `analyze_screenshot`'s call to the vision model and its base64 encoding
  (backend/screen_analyser.py:85-127) are left out. The model starts from
  the reply text (`AnalysisFromText`).
- The speech model and the WAV wrapping (backend/transcribe.py:28-44) are a
  function parameter.
- The `/chat`, `/screen/analyze` and `/health` routes are left out. They
  only wire the modelled functions to HTTP.
- `transcribe_loop` takes a reference to the stored buffer, not a copy
  (transcribe.py:66). A `bytearray` buffer (after `clear_stream`) can
  therefore grow between the snapshot and the trim. The model reads the
  table once per iteration.
- Transcriber.RunWorker: bounded by a fuel parameter. It runs at most
  `fuel + 1` iterations, so a worker that never exits is described only up
  to that many. Its result keeps only the last iteration's `emitted`, so
  what earlier iterations sent to the client is not stated.
- AiModel.EffectiveMessages, AiModel.NormalizeMessages: explicit JSON
  nulls and non-string roles or contents are not represented. `dict.get`
  applies its default only to a missing key, so in the source a present
  `"role": null` stays `None`, and so does a null `content`, `message` or
  `model`. The model gives such a key its default.
- EventStream.FramesRoundTrip, AiModel.ResponseRoundTrip,
  AiModel.GenerateChatResponseCorrected: proved only for deltas without
  CR. A CR inside a delta is a line break on the wire under any framing.
- AiModel.GenerateChatResponse: the round trip is stated only for streams
  without line breaks. For a multi-line delta only the truncation of a
  two-line first delta is stated, because what a later multi-line delta
  turns into depends on the text of its other lines.
- The receiver is the event-stream interpretation of the WHATWG HTML
  standard. The page reads the stream with the `fetchEventSource` library
  (page.tsx:79), whose parser is not part of this model. Where it differs
  from the standard, for instance by dropping an empty `data` line, a
  delta with a leading LF may read back differently.
- Text.Trim: treats only the six ASCII whitespace characters (space, tab,
  LF, VT, FF, CR) as space, which both runtimes strip. Python `str.strip()`
  also strips the ASCII controls U+001C-U+001F (file, group, record and
  unit separators), which JavaScript `trim()` keeps. Both also strip
  non-ASCII spaces such as U+00A0 and U+2028, but their lists differ:
  JavaScript strips U+FEFF and Python does not, and Python strips U+0085
  and JavaScript does not. The backend (Python) and the page (JavaScript)
  therefore trim such text differently.
- DesktopCapture.TogglePauseResume: no sender in this code reaches the
  `toggle-audio-pause-resume` handler (index.js:268-282), and none reaches
  `delete-audio-buffer` (index.js:285-289) either. The preload bridge has
  no sender for either channel. The `CommandOrControl+Shift+6` and `+7`
  shortcuts only send `command-executed` to the renderer (index.js:135-139).
  AudioControls then calls the bridge's `pause`, `resume` or `delete`, which
  send `audio-pause`, `audio-resume` or `audio-delete`
  (`AudioControls.HandleCommand`). The handler is modelled as written.
- DesktopCapture.Resize: does not model `Math.round`, because the model
  works in whole pixels.
- InputText.ContextLines: counts characters as Dafny `char`s. JavaScript
  `substring` counts UTF-16 code units.
- InputText.OnFinal, InputText.OnError: the renderer's preload exposes no
  `onFinal`, so InputText.tsx:88 throws. The effect stops there, and the
  `onError` registration at InputText.tsx:96 is never reached either. Both
  members model the listeners as the component intends them.
- React closures capture stale state. `ChatPage.Send` reads the page it is
  given, so a `send` queued from an old closure is not modelled.
- `DesktopCapture.StartAudioCapture` receives socket connectivity as an
  input. A `start_stream` emitted before a freshly created socket connects
  is lost, and the model covers this only by that input being false.
- The spawn-failure fallback (index.js:527-572) and `setupFFmpegProcess`
  are left out. Spawning is treated as succeeding for known modes.
- The pending-voice auto-send effect (InputText.tsx:111-124) and the
  window globals (InputText.tsx:128-198, page.tsx:254-263) are left out.
  They only dispatch to modelled operations after React state settles.
- `captureAndAnalyzeScreen` (InputText.tsx:257-311) is left out. Its
  outcome is the `analysis` input of `ComposeOutgoing`.
- AudioControls.HandlePausePlayToggle, AudioControls.HandleDelete: the
  bridge is one flag for all of its methods, and the parent's optional
  callbacks are taken as provided. Without the bridge the source logs
  instead of calling it and still notifies the parent.
- desktop/preload.js, desktop/updater.js, frontend layout.tsx,
  ReloadButton.tsx and backend/test_latency.py are not part of this model.

## Findings

| source | as written | input that shows it | evidently intended | confidence | as-written member | corrected member |
|---|---|---|---|---|---|---|
| backend/server.py:104 | `sid = request.sids` raises `AttributeError` on every call, so no audio ever reaches a session buffer | any binary `audio_chunk` from a connected session | `request.sid`, as in every other handler | high, not executed | SessionStore.OnAudioChunkAsWritten, SessionStore.AudioChunkTypoDropsAudio | SessionStore.OnAudioChunk, SessionStore.AudioChunksAppend |
| backend/ai_model.py:60 | a delta is written as one `data:` line; a receiver treats its LF as the end of the field and drops the rest of the delta | the delta `"a\nb"` reads back as `"a"` | one `data:` line per line of the delta, so it reads back whole | high, not executed | EventStream.FrameAsWritten, EventStream.MultiLineDeltaTruncated, AiModel.ResponseAsWrittenLosesLines, AiModel.FirstPayloadTruncated, AiModel.GenerateChatResponse | EventStream.Frame, EventStream.FramesRoundTrip, AiModel.ResponseRoundTrip, AiModel.GenerateChatResponseCorrected |
| frontend/src/app/page.tsx:116-119 | the text branch takes every non-empty event except the exact `[ERROR]`, so the backend's `[ERROR] <message>` is appended to the answer as text | a stream ending in `data: [ERROR] timeout` | the `startsWith('[ERROR]')` test (with its `replace('[ERROR] ', '')`) decides first and raises the message | high, not executed | ChatPage.ClassifyAsWritten, ChatPage.ErrorEventShownAsText, Pipeline.FailedResponseShownAsText | ChatPage.Classify, Pipeline.ResponseReachesChat |
| desktop/index.js:619-635 | `audio-stop` clears the process and mode but not `isAudioPaused`, so after stopping a paused capture the next capture's `audio-pause` is ignored | pause, stop, start again, pause: no `pause_stream` is sent | reset `isAudioPaused` with the process | medium, not executed | DesktopCapture.AudioStopAsWritten, DesktopCapture.PauseLostAfterPausedStop | DesktopCapture.AudioStop, DesktopCapture.PauseAfterStopReachesBackend |
| backend/transcribe.py:133 | `del clients[sid]["raw_buffer"][:excess]` runs on a `bytes` object (stored as `b""` by `start_stream` and kept `bytes` by `+=`); the `TypeError` is caught at line 143, after the trim and before the emission | a running session whose buffer exceeds 960000 bytes and whose text changes | cut the buffer to its last 960000 bytes (store a `bytearray`), then emit | high, not executed | Transcriber.TranscriptionPassAsWritten, Transcriber.OversizedBufferSilenced | Transcriber.TranscriptionPass, Transcriber.Step |

=== FILE: ai_model.dfy ===
/** The chat proxy of backend/ai_model.py: normalising the request payload
    into the model's message list, the reasoning options, and the
    server-sent-event stream returned to the browser.  The OpenRouter client
    is replaced by the stream of deltas it produced (and the exception that
    ended it, if any). */
module AiModel {
  import opened Wrappers
  import EventStream

  /** JSON values as decoded from the request (numbers limited to integers). */
  datatype Json =
    | JNull
    | JBool(b: bool)
    | JInt(i: int)
    | JString(s: string)
    | JArray(items: seq<Json>)
    | JObject(fields: seq<(string, Json)>)

  /** Python truthiness of a decoded JSON value. */
  predicate Truthy(v: Json) {
    match v
    case JNull => false
    case JBool(b) => b
    case JInt(i) => i != 0
    case JString(s) => s != []
    case JArray(items) => items != []
    case JObject(fields) => fields != []
  }

  /** One entry of `payload["messages"]`; `None` marks an absent key. */
  datatype InMessage = InMessage(role: Option<string>, content: Option<string>, reasoningDetails: Option<Json>)

  /** The `/chat` request body; `messages` is `None` when absent or null. */
  datatype Payload = Payload(messages: Option<seq<InMessage>>, message: Option<string>, model: Option<string>)

  datatype ChatMessage = ChatMessage(role: string, content: string)

  /** The messages the payload stands for: its non-empty `messages` list,
      or else a single user message holding `message` (default `""`). */
  function EffectiveMessages(payload: Payload): (r: seq<InMessage>)
    ensures |r| > 0
    ensures payload.messages.Some? && payload.messages.value != [] ==> r == payload.messages.value
    ensures payload.messages.None? || payload.messages.value == [] ==>
              r == [InMessage(Some("user"), Some(payload.message.GetOr("")), None)]
  {
    match payload.messages
    case Some(msgs) => if msgs != [] then msgs else [InMessage(Some("user"), Some(payload.message.GetOr("")), None)]
    case None => [InMessage(Some("user"), Some(payload.message.GetOr("")), None)]
  }

  /** A message reduced to role (default `"user"`) and content (default `""`). */
  function Normalized(m: InMessage): ChatMessage {
    ChatMessage(m.role.GetOr("user"), m.content.GetOr(""))
  }

  /** Reference definition: the `reasoning_details` of the last assistant
      message that carries that key. */
  function LastAssistantReasoning(msgs: seq<InMessage>): Option<Json>
    decreases |msgs|
  {
    if msgs == [] then None
    else
      var m := msgs[|msgs| - 1];
      if m.role.GetOr("user") == "assistant" && m.reasoningDetails.Some? then m.reasoningDetails
      else LastAssistantReasoning(msgs[..|msgs| - 1])
  }

  /** Without any `reasoning_details` there is no prior reasoning. */
  lemma {:induction false} NoReasoningNoPrior(msgs: seq<InMessage>)
    requires forall i :: 0 <= i < |msgs| ==> msgs[i].reasoningDetails.None?
    ensures LastAssistantReasoning(msgs) == None
    decreases |msgs|
  {
    if msgs != [] {
      NoReasoningNoPrior(msgs[..|msgs| - 1]);
    }
  }

  /** `_normalize_messages`: the system prompt first, then every message in
      order, and the prior reasoning of the last assistant message that has it. */
  method NormalizeMessages(payload: Payload, systemPrompt: string) returns (out: seq<ChatMessage>, prior: Option<Json>)
    ensures |out| == |EffectiveMessages(payload)| + 1
    ensures out[0] == ChatMessage("system", systemPrompt)
    ensures forall i :: 0 <= i < |EffectiveMessages(payload)| ==> out[i + 1] == Normalized(EffectiveMessages(payload)[i])
    ensures prior == LastAssistantReasoning(EffectiveMessages(payload))
  {
    var msgs := EffectiveMessages(payload);
    out := [ChatMessage("system", systemPrompt)];
    prior := None;
    var i := 0;
    while i < |msgs|
      invariant 0 <= i <= |msgs|
      invariant |out| == i + 1 && out[0] == ChatMessage("system", systemPrompt)
      invariant forall j :: 0 <= j < i ==> out[j + 1] == Normalized(msgs[j])
      invariant prior == LastAssistantReasoning(msgs[..i])
    {
      var m := msgs[i];
      var role := m.role.GetOr("user");
      out := out + [ChatMessage(role, m.content.GetOr(""))];
      if role == "assistant" && m.reasoningDetails.Some? {
        prior := m.reasoningDetails;
      }
      assert msgs[..i + 1][..i] == msgs[..i];
      i := i + 1;
    }
    assert msgs[..i] == msgs;
  }

  /** `extra_body["reasoning"]`. */
  datatype ReasoningOptions = ReasoningOptions(enabled: bool, previous: Option<Json>)

  /** Reasoning is always enabled; the prior reasoning is passed on only
      when it is truthy. */
  function ExtraBody(prior: Option<Json>): (r: ReasoningOptions)
    ensures r.enabled
    ensures r.previous.Some? <==> prior.Some? && Truthy(prior.value)
    ensures r.previous.Some? ==> r.previous == prior
  {
    match prior
    case Some(v) => if Truthy(v) then ReasoningOptions(true, Some(v)) else ReasoningOptions(true, None)
    case None => ReasoningOptions(true, None)
  }

  /** What the model client produced: the `delta.content` of each chunk in
      order, then either normal completion or the exception message. */
  datatype ModelStream = ModelStream(deltas: seq<Option<string>>, failure: Option<string>)

  /** The deltas that are forwarded: present and non-empty. */
  function NonEmptyDeltas(deltas: seq<Option<string>>): (r: seq<string>)
    ensures |r| <= |deltas|
    ensures forall i :: 0 <= i < |r| ==> r[i] != []
    ensures forall d :: d in r ==> Some(d) in deltas
    ensures forall d :: Some(d) in deltas && d != [] ==> d in r
  {
    if deltas == [] then []
    else
      var rest := NonEmptyDeltas(deltas[1..]);
      assert forall x :: x in deltas[1..] ==> x in deltas;
      match deltas[0]
      case Some(d) => if d != [] then [d] + rest else rest
      case None => rest
  }

  /** Forwarding distributes over concatenation, so the forwarded deltas
      keep their order and multiplicity. */
  lemma {:induction false} NonEmptyDeltasAppend(a: seq<Option<string>>, b: seq<Option<string>>)
    ensures NonEmptyDeltas(a + b) == NonEmptyDeltas(a) + NonEmptyDeltas(b)
    decreases |a|
  {
    if a == [] {
      assert a + b == b;
    } else {
      assert (a + b)[0] == a[0] && (a + b)[1..] == a[1..] + b;
      NonEmptyDeltasAppend(a[1..], b);
    }
  }

  /** A single chunk is forwarded exactly when its delta is present and non-empty. */
  lemma NonEmptyDeltasSingle(x: Option<string>)
    ensures x.Some? && x.value != [] ==> NonEmptyDeltas([x]) == [x.value]
    ensures x.None? || x.value == [] ==> NonEmptyDeltas([x]) == []
  {
    assert [x][1..] == [];
  }

  /** The `data` carried by each event of the response, in order: every
      forwarded delta, then `[DONE]` after normal completion or
      `[ERROR] <message>` after an exception. */
  function EventPayloads(stream: ModelStream): (r: seq<string>)
    ensures |r| == |NonEmptyDeltas(stream.deltas)| + 1
    ensures r[..|r| - 1] == NonEmptyDeltas(stream.deltas)
    ensures stream.failure.None? ==> r[|r| - 1] == EventStream.DoneMarker
    ensures stream.failure.Some? ==> r[|r| - 1] == EventStream.ErrorMarker + " " + stream.failure.value
  {
    var last := match stream.failure case None => EventStream.DoneMarker case Some(msg) => EventStream.ErrorMarker + " " + msg;
    NonEmptyDeltas(stream.deltas) + [last]
  }

  /** The response body as written: each event on one `data:` line. */
  function ResponseBodyAsWritten(stream: ModelStream): string {
    EventStream.Frames(EventPayloads(stream), EventStream.FrameAsWritten)
  }

  /** The response body with multi-line payloads framed line by line. */
  function ResponseBody(stream: ModelStream): string {
    EventStream.Frames(EventPayloads(stream), EventStream.Frame)
  }

  predicate NoCarriageReturn(stream: ModelStream) {
    (forall i :: 0 <= i < |stream.deltas| && stream.deltas[i].Some? ==> '\r' !in stream.deltas[i].value)
    && (stream.failure.Some? ==> '\r' !in stream.failure.value)
  }

  /** The browser receives exactly the forwarded deltas, in order, followed
      by the completion or error marker. */
  lemma ResponseRoundTrip(stream: ModelStream)
    requires NoCarriageReturn(stream)
    ensures EventStream.Parse(ResponseBody(stream)) == EventPayloads(stream)
  {
    var ps := EventPayloads(stream);
    forall i | 0 <= i < |ps| ensures '\r' !in ps[i] {
      if i < |ps| - 1 {
        assert ps[i] in NonEmptyDeltas(stream.deltas);
        assert Some(ps[i]) in stream.deltas;
      } else if stream.failure.Some? {
        assert ps[i] == EventStream.ErrorMarker + " " + stream.failure.value;
      }
    }
    EventStream.FramesRoundTrip(EventStream.Fresh, ps);
  }

  /** Every delta and the failure message fit on one line. */
  predicate SingleLine(stream: ModelStream) {
    (forall i :: 0 <= i < |stream.deltas| && stream.deltas[i].Some? ==> EventStream.NoLineBreak(stream.deltas[i].value))
    && (stream.failure.Some? ==> EventStream.NoLineBreak(stream.failure.value))
  }

  /** As written, the browser receives exactly the forwarded deltas, in
      order, followed by the marker, as long as no delta spans two lines. */
  lemma ResponseAsWrittenRoundTrip(stream: ModelStream)
    requires SingleLine(stream)
    ensures EventStream.Parse(ResponseBodyAsWritten(stream)) == EventPayloads(stream)
  {
    var ps := EventPayloads(stream);
    forall i | 0 <= i < |ps| ensures EventStream.NoLineBreak(ps[i]) {
      if i < |ps| - 1 {
        assert ps[i] in NonEmptyDeltas(stream.deltas);
        assert Some(ps[i]) in stream.deltas;
      } else if stream.failure.Some? {
        assert ps[i] == EventStream.ErrorMarker + " " + stream.failure.value;
      }
    }
    EventStream.FramesSingleLine(ps);
    ResponseRoundTrip(stream);
  }

  /** A payload of exactly two lines whose second line a receiver ignores:
      not blank, not a comment or other field, and not `data`. */
  predicate TwoLineHead(d: string) {
    match EventStream.FirstIndex(d, '\n')
    case None => false
    case Some(k) =>
      var l2 := d[k + 1..];
      '\r' !in d[..k] && EventStream.NoLineBreak(l2) && l2 != [] && ':' !in l2 && l2 != "data"
  }

  /** As written, when the first payload spans two lines, the first event
      the browser receives holds only its first line, whatever follows. */
  lemma FirstPayloadTruncated(stream: ModelStream)
    requires TwoLineHead(EventPayloads(stream)[0])
    ensures var d := EventPayloads(stream)[0];
            var events := EventStream.Parse(ResponseBodyAsWritten(stream));
            |events| > 0 && events[0] == d[..EventStream.FirstIndex(d, '\n').value]
  {
    var ps := EventPayloads(stream);
    var d := ps[0];
    var k := EventStream.FirstIndex(d, '\n').value;
    var l1 := d[..k];
    var l2 := d[k + 1..];
    assert d == l1 + "\n" + l2;
    var rest := EventStream.Frames(ps[1..], EventStream.FrameAsWritten);
    assert ResponseBodyAsWritten(stream) == EventStream.FrameAsWritten(l1 + "\n" + l2) + rest;
    EventStream.FirstEventAsWritten(l1, l2, rest);
  }

  /** A single delta spanning two lines loses its second line as written. */
  lemma ResponseAsWrittenLosesLines()
    ensures var s := ModelStream([Some("a\nb")], None);
            EventStream.Parse(ResponseBodyAsWritten(s)) != EventPayloads(s)
  {
    var s := ModelStream([Some("a\nb")], None);
    assert NonEmptyDeltas(s.deltas) == ["a\nb"];
    var ps := EventPayloads(s);
    assert ps == ["a\nb", EventStream.DoneMarker];
    assert "a" + "\n" + "b" == "a\nb";
    var rest := EventStream.Frames([EventStream.DoneMarker], EventStream.FrameAsWritten);
    assert ResponseBodyAsWritten(s) == EventStream.FrameAsWritten("a\nb") + rest;
    EventStream.FirstEventAsWritten("a", "b", rest);
  }

  /** The request sent to the model and the response streamed back. */
  datatype ChatExchange = ChatExchange(model: string, messages: seq<ChatMessage>,
                                       reasoning: ReasoningOptions, body: string)

  /** The request part of an exchange: the model (default when absent), the
      system prompt followed by the normalised messages, and reasoning
      enabled with the prior passed on, unchanged, exactly when it is truthy. */
  predicate RequestFor(r: ChatExchange, payload: Payload, systemPrompt: string, defaultModel: string) {
    var msgs := EffectiveMessages(payload);
    var prior := LastAssistantReasoning(msgs);
    r.model == payload.model.GetOr(defaultModel)
    && |r.messages| == |msgs| + 1 && r.messages[0] == ChatMessage("system", systemPrompt)
    && (forall i :: 0 <= i < |msgs| ==> r.messages[i + 1] == Normalized(msgs[i]))
    && r.reasoning.enabled
    && (r.reasoning.previous.Some? <==> prior.Some? && Truthy(prior.value))
    && (r.reasoning.previous.Some? ==> r.reasoning.previous == prior)
  }

  /** `generate_chat_response` as written: each event on one `data:` line,
      so the browser reads back the payloads whenever no delta spans two
      lines. */
  method GenerateChatResponse(payload: Payload, systemPrompt: string, defaultModel: string, stream: ModelStream)
    returns (r: ChatExchange)
    ensures RequestFor(r, payload, systemPrompt, defaultModel)
    ensures SingleLine(stream) ==> EventStream.Parse(r.body) == EventPayloads(stream)
    ensures TwoLineHead(EventPayloads(stream)[0]) ==>
              var d := EventPayloads(stream)[0];
              var events := EventStream.Parse(r.body);
              |events| > 0 && events[0] == d[..EventStream.FirstIndex(d, '\n').value]
  {
    var messages, prior := NormalizeMessages(payload, systemPrompt);
    var reasoning := ExtraBody(prior);
    if SingleLine(stream) {
      ResponseAsWrittenRoundTrip(stream);
    }
    if TwoLineHead(EventPayloads(stream)[0]) {
      FirstPayloadTruncated(stream);
    }
    r := ChatExchange(payload.model.GetOr(defaultModel), messages, reasoning, ResponseBodyAsWritten(stream));
  }

  /** `generate_chat_response` with multi-line deltas framed line by line:
      the browser reads back the payloads whenever no delta holds a CR. */
  method GenerateChatResponseCorrected(payload: Payload, systemPrompt: string, defaultModel: string, stream: ModelStream)
    returns (r: ChatExchange)
    ensures RequestFor(r, payload, systemPrompt, defaultModel)
    ensures NoCarriageReturn(stream) ==> EventStream.Parse(r.body) == EventPayloads(stream)
  {
    var messages, prior := NormalizeMessages(payload, systemPrompt);
    var reasoning := ExtraBody(prior);
    if NoCarriageReturn(stream) {
      ResponseRoundTrip(stream);
    }
    r := ChatExchange(payload.model.GetOr(defaultModel), messages, reasoning, ResponseBody(stream));
  }
}

=== FILE: audio_controls.dfy ===
/** The recording controls of frontend/src/components/AudioControls.tsx:
    pause/resume and delete of the current recording, from a button or a
    global shortcut, expressed as the calls they make. */
module AudioControls {
  datatype Mode = Keyboard | Voice | System | Both

  function ModeName(m: Mode): string {
    match m
    case Keyboard => "keyboard"
    case Voice => "voice"
    case System => "system"
    case Both => "both"
  }

  /** Calls on the desktop bridge (`window.audioAPI`). */
  datatype AudioCall = Start(mode: Mode) | Stop | Pause | Resume | Delete

  /** What a control does, in order: report the new paused state to the
      parent, call the bridge, or tell the parent the buffer was deleted. */
  datatype Effect = ReportPaused(paused: bool) | Call(call: AudioCall) | NotifyDeleted

  /** The component's props, and whether the desktop bridge is present
      (without it a control only logs instead of calling it). */
  datatype Props = Props(mode: Mode, isRecording: bool, isPaused: bool, bridge: bool)

  /** `handlePausePlayToggle`: the parent hears the new state first, then
      the bridge is asked to pause or resume when it exists. */
  function HandlePausePlayToggle(p: Props): (r: seq<Effect>)
    ensures !p.isRecording ==> r == []
    ensures p.isRecording ==> |r| == (if p.bridge then 2 else 1) && r[0] == ReportPaused(!p.isPaused)
    ensures p.isRecording && p.bridge ==> r[1] == Call(if p.isPaused then Resume else Pause)
  {
    if !p.isRecording then []
    else
      var newPaused := !p.isPaused;
      [ReportPaused(newPaused)] + if p.bridge then [Call(if newPaused then Pause else Resume)] else []
  }

  /** `handleDelete`: the bridge's delete, when it exists, comes before the
      parent's notice, which is given either way. */
  function HandleDelete(p: Props): (r: seq<Effect>)
    ensures !p.isRecording ==> r == []
    ensures p.isRecording && p.bridge ==> r == [Call(Delete), NotifyDeleted]
    ensures p.isRecording && !p.bridge ==> r == [NotifyDeleted]
  {
    if !p.isRecording then [] else (if p.bridge then [Call(Delete)] else []) + [NotifyDeleted]
  }

  /** The shortcut handler: both commands act only while recording in an
      audio mode; other commands are not this component's. */
  function HandleCommand(p: Props, command: string): (r: seq<Effect>)
    ensures !p.isRecording || p.mode == Keyboard ==> r == []
    ensures p.isRecording && p.mode != Keyboard && command == "toggle-audio-pause-resume" ==> r == HandlePausePlayToggle(p)
    ensures p.isRecording && p.mode != Keyboard && command == "delete-audio-buffer" ==> r == HandleDelete(p)
    ensures command != "toggle-audio-pause-resume" && command != "delete-audio-buffer" ==> r == []
  {
    var active := p.isRecording && p.mode != Keyboard;
    match command
    case "toggle-audio-pause-resume" => if active then HandlePausePlayToggle(p) else []
    case "delete-audio-buffer" => if active then HandleDelete(p) else []
    case _ => []
  }

  /** Whether the controls are shown. */
  predicate Renders(mode: Mode) {
    mode != Keyboard
  }

  /** Two pause toggles, with the reported state fed back as the new props,
      call pause and resume once each and restore the paused state. */
  lemma ToggleTwiceRestores(p: Props)
    requires p.isRecording
    ensures var e1 := HandlePausePlayToggle(p);
            var p1 := p.(isPaused := e1[0].paused);
            var e2 := HandlePausePlayToggle(p1);
            e2[0].paused == p.isPaused
            && (p.bridge ==> {e1[1].call, e2[1].call} == {Pause, Resume})
  {
  }
}

=== FILE: chat_page.dfy ===
/** The chat page of frontend/src/app/page.tsx: the message list, what a
    send adds to it and posts to the backend, how streamed events change it,
    and regenerating the answer to an earlier message.  React state updates
    are modelled as functions from the page state to the next one. */
module ChatPage {
  import opened Wrappers
  import opened Text
  import EventStream

  datatype Role = User | Ai

  /** One chat bubble; `rawInput` keeps the full text sent when it differs
      from what is displayed. */
  datatype Msg = Msg(role: Role, text: string, rawInput: Option<string>)

  /** The page state; `streaming` stands for a live abort controller. */
  datatype Page = Page(messages: seq<Msg>, input: string, loading: bool,
                       screenContext: Option<string>, streaming: bool)

  const InitialPage := Page([], "", false, None, false)

  /** `updateLastAiMessage`: the chunk is appended to the last message when
      that message is the AI's; otherwise nothing changes. */
  function UpdateLastAiMessage(msgs: seq<Msg>, chunk: string): (r: seq<Msg>)
    ensures |r| == |msgs|
    ensures forall i :: 0 <= i < |msgs| - 1 ==> r[i] == msgs[i]
    ensures |msgs| > 0 && msgs[|msgs| - 1].role == Ai ==>
              r[|msgs| - 1] == msgs[|msgs| - 1].(text := msgs[|msgs| - 1].text + chunk)
    ensures !(|msgs| > 0 && msgs[|msgs| - 1].role == Ai) ==> r == msgs
  {
    if |msgs| > 0 && msgs[|msgs| - 1].role == Ai then
      msgs[|msgs| - 1 := msgs[|msgs| - 1].(text := msgs[|msgs| - 1].text + chunk)]
    else msgs
  }

  function Concat(chunks: seq<string>): string {
    if chunks == [] then [] else chunks[0] + Concat(chunks[1..])
  }

  function UpdateAll(msgs: seq<Msg>, chunks: seq<string>): seq<Msg>
    decreases |chunks|
  {
    if chunks == [] then msgs else UpdateAll(UpdateLastAiMessage(msgs, chunks[0]), chunks[1..])
  }

  /** Appending chunks one at a time is appending their concatenation. */
  lemma {:induction false} UpdateAllIsConcat(msgs: seq<Msg>, chunks: seq<string>)
    ensures UpdateAll(msgs, chunks) == UpdateLastAiMessage(msgs, Concat(chunks))
    decreases |chunks|
  {
    if chunks == [] {
      if |msgs| > 0 && msgs[|msgs| - 1].role == Ai {
        assert msgs[|msgs| - 1].text + [] == msgs[|msgs| - 1].text;
      }
    } else {
      var m1 := UpdateLastAiMessage(msgs, chunks[0]);
      UpdateAllIsConcat(m1, chunks[1..]);
      if |msgs| > 0 && msgs[|msgs| - 1].role == Ai {
        assert m1[|msgs| - 1].text + Concat(chunks[1..]) == msgs[|msgs| - 1].text + Concat(chunks);
      }
    }
  }

  const QueryMarker := "USER QUERY:"

  /** What is shown for a message that has no typed text: the part after the
      query marker, trimmed, when there is one and it is not blank; otherwise
      the whole message. */
  function DisplayFromRaw(raw: string): string {
    match SecondSegment(raw, QueryMarker)
    case Some(seg) => if Trim(seg) != [] then Trim(seg) else raw
    case None => raw
  }

  /** The marker cannot overlap itself: its only colon is its last character. */
  lemma MarkerNoBorder(a: string, q: string, j: int)
    requires 0 <= j < |a|
    requires !Contains(a, QueryMarker)
    ensures !OccursAt(a + QueryMarker + q, QueryMarker, j)
  {
    var s := a + QueryMarker + q;
    if j + |QueryMarker| <= |a| {
      assert IndexOf(a, QueryMarker, 0).None?;
      assert !OccursAt(a, QueryMarker, j);
      assert a[j..j + |QueryMarker|] == s[j..j + |QueryMarker|];
    } else {
      var last := |QueryMarker| - 1;
      var k := j + last - |a|;
      assert s[j + last] == QueryMarker[k];
      assert QueryMarker[k] != QueryMarker[last];
    }
  }

  /** A message built as `<context>USER QUERY:<query>` displays as the
      trimmed query, when neither part contains the marker and the query is
      not blank. */
  lemma DisplayShowsQuery(a: string, q: string)
    requires !Contains(a, QueryMarker) && !Contains(q, QueryMarker)
    requires Trim(q) != []
    ensures DisplayFromRaw(a + QueryMarker + q) == Trim(q)
  {
    var s := a + QueryMarker + q;
    MarkerOnlyBetween(a, q, s);
    SecondSegmentLast(s, QueryMarker, |a|);
    assert s[|a| + |QueryMarker|..] == q;
  }

  /** In `a + QueryMarker + q`, with no marker in `a` or `q`, the marker
      occurs exactly once: between the two. */
  lemma MarkerOnlyBetween(a: string, q: string, s: string)
    requires s == a + QueryMarker + q
    requires !Contains(a, QueryMarker) && !Contains(q, QueryMarker)
    ensures OccursAt(s, QueryMarker, |a|)
    ensures forall j :: 0 <= j < |a| ==> !OccursAt(s, QueryMarker, j)
    ensures forall j :: |a| + |QueryMarker| <= j ==> !OccursAt(s, QueryMarker, j)
  {
    var e := |a| + |QueryMarker|;
    forall j | 0 <= j < |a| ensures !OccursAt(s, QueryMarker, j) {
      MarkerNoBorder(a, q, j);
    }
    assert s[|a|..e] == QueryMarker;
    forall j | e <= j ensures !OccursAt(s, QueryMarker, j) {
      MarkerNotInTail(a, q, s, j);
    }
  }

  lemma MarkerNotInTail(a: string, q: string, s: string, j: int)
    requires s == a + QueryMarker + q && |a| + |QueryMarker| <= j
    requires !Contains(q, QueryMarker)
    ensures !OccursAt(s, QueryMarker, j)
  {
    var e := |a| + |QueryMarker|;
    if OccursAt(s, QueryMarker, j) {
      assert s[j..j + |QueryMarker|] == q[j - e..j - e + |QueryMarker|];
      assert OccursAt(q, QueryMarker, j - e);
    }
  }

  /** The text resent when a user message is regenerated: `rawInput || text`. */
  function ResendText(m: Msg): string {
    if m.rawInput.Some? && m.rawInput.value != [] then m.rawInput.value else m.text
  }

  /** One entry of the request's `messages`. */
  datatype Outbound = Outbound(role: string, content: string)

  function RoleName(r: Role): string {
    match r case User => "user" case Ai => "assistant"
  }

  function ScreenContextNote(sc: string): string {
    "SCREEN CONTEXT:\n" + sc + "\n\nRefer to this screen information when answering questions."
  }

  predicate HasScreenContext(sc: Option<string>) {
    sc.Some? && sc.value != []
  }

  /** The `messages` posted to `/chat`: the screen context as a system
      message when there is one, the history (unless this is a fresh start),
      then the new user message. */
  function RequestMessages(history: seq<Msg>, sc: Option<string>, raw: string): (r: seq<Outbound>)
    ensures |r| == (if HasScreenContext(sc) then 1 else 0) + |history| + 1
    ensures r[|r| - 1] == Outbound("user", raw)
    ensures HasScreenContext(sc) ==> r[0] == Outbound("system", ScreenContextNote(sc.value))
    ensures var k := if HasScreenContext(sc) then 1 else 0;
            forall i :: 0 <= i < |history| ==> r[k + i] == Outbound(RoleName(history[i].role), history[i].text)
  {
    var isFreshStart := |history| == 0;
    var past := if isFreshStart then [] else History(history);
    var user := [Outbound("user", raw)];
    if HasScreenContext(sc) then
      var r := [Outbound("system", ScreenContextNote(sc.value))] + past + user;
      r
    else
      past + user
  }

  /** The page's messages as request entries, one for one. */
  function History(history: seq<Msg>): (r: seq<Outbound>)
    ensures |r| == |history|
    ensures forall i :: 0 <= i < |history| ==> r[i] == Outbound(RoleName(history[i].role), history[i].text)
  {
    seq(|history|, i requires 0 <= i < |history| => Outbound(RoleName(history[i].role), history[i].text))
  }

  datatype SendResult = Ignored | Sent(page: Page, request: seq<Outbound>)

  /** The text a send uses: its argument when non-empty, else the input box. */
  function MessageToSend(page: Page, arg: Option<string>): string {
    if arg.Some? && arg.value != [] then arg.value else page.input
  }

  /** `send`: a blank message is ignored; otherwise the user message and an
      empty AI message are appended, the input is cleared and the request is
      built from the history as it was before the send. */
  function Send(page: Page, arg: Option<string>): (r: SendResult)
    ensures r.Ignored? <==> IsBlank(MessageToSend(page, arg))
    ensures r.Sent? ==>
              var raw := Trim(MessageToSend(page, arg));
              var n := |page.messages|;
              && |r.page.messages| == n + 2
              && r.page.messages[..n] == page.messages
              && r.page.messages[n].role == User
              && r.page.messages[n].text != []
              && ResendText(r.page.messages[n]) == raw
              && (Trim(page.input) != [] ==> r.page.messages[n].text == Trim(page.input))
              && r.page.messages[n + 1] == Msg(Ai, [], None)
              && r.page.input == [] && r.page.loading && r.page.streaming
              && r.page.screenContext == page.screenContext
              && r.request == RequestMessages(page.messages, page.screenContext, raw)
  {
    var messageToSend := MessageToSend(page, arg);
    if IsBlank(messageToSend) then Ignored
    else
      var userText := Trim(page.input);
      var raw := Trim(messageToSend);
      var display := if userText != [] then userText else DisplayFromRaw(raw);
      var user := Msg(User, display, if userText != raw then Some(raw) else None);
      var msgs := page.messages + [user] + [Msg(Ai, [], None)];
      assert msgs[..|page.messages|] == page.messages;
      Sent(page.(messages := msgs, input := [], loading := true, streaming := true),
           RequestMessages(page.messages, page.screenContext, raw))
  }

  /** With an empty input box, the message shown is derived from the sent
      text alone. */
  lemma SendDisplay(page: Page, arg: Option<string>)
    requires IsBlank(page.input)
    requires !IsBlank(MessageToSend(page, arg))
    ensures Send(page, arg).Sent?
    ensures Send(page, arg).page.messages[|page.messages|].text == DisplayFromRaw(Trim(MessageToSend(page, arg)))
  {
  }

  /** `sendWithScreenContext`: the context and query are joined around the
      query marker and sent; the context is stored for later requests, while
      this request is built with the context the page held before. */
  function SendWithScreenContext(page: Page, sc: string, userInput: string): (r: SendResult)
    ensures var combined := sc + "\n" + QueryMarker + " " + userInput;
            r.Ignored? <==> IsBlank(combined)
    ensures r.Sent? ==> r.page.screenContext == Some(sc)
    ensures r.Sent? ==> r.request == RequestMessages(page.messages, page.screenContext, Trim(sc + "\n" + QueryMarker + " " + userInput))
  {
    var combined := sc + "\n" + QueryMarker + " " + userInput;
    assert combined != [];
    match Send(page, Some(combined))
    case Ignored => Ignored
    case Sent(p, req) => Sent(p.(screenContext := Some(sc)), req)
  }

  /** How the page reacts to the `data` of one streamed event. */
  datatype Reaction = Skip | AppendText(chunk: string) | Raise(message: string)

  /** `onmessage` as written: the error test is reached only for data that
      is exactly `[ERROR]`, so an `[ERROR] <message>` event is shown as text. */
  function ClassifyAsWritten(data: string): (r: Reaction)
    ensures r.AppendText? <==> data != [] && data != EventStream.DoneMarker && data != EventStream.ErrorMarker
    ensures r.AppendText? ==> r.chunk == data
    ensures r.Raise? <==> data == EventStream.ErrorMarker
    ensures r.Raise? ==> r.message == EventStream.ErrorMarker
  {
    if data == EventStream.DoneMarker then Skip
    else if data != [] && data != EventStream.ErrorMarker then AppendText(data)
    else if StartsWith(data, EventStream.ErrorMarker) then Raise(ReplaceFirst(data, EventStream.ErrorMarker + " ", ""))
    else Skip
  }

  /** `onmessage` with the error test first, as the `replace` call intends. */
  function Classify(data: string): (r: Reaction)
    ensures r.Raise? <==> StartsWith(data, EventStream.ErrorMarker)
    ensures r.AppendText? <==> data != [] && data != EventStream.DoneMarker && !StartsWith(data, EventStream.ErrorMarker)
    ensures r.AppendText? ==> r.chunk == data
    ensures forall msg :: data == EventStream.ErrorMarker + " " + msg ==> r == Raise(msg)
  {
    if data == EventStream.DoneMarker then Skip
    else if StartsWith(data, EventStream.ErrorMarker) then
      assert forall msg :: data == EventStream.ErrorMarker + " " + msg ==>
        StartsWith(data, EventStream.ErrorMarker + " ") && data[|EventStream.ErrorMarker + " "|..] == msg;
      Raise(ReplaceFirst(data, EventStream.ErrorMarker + " ", ""))
    else if data != [] then AppendText(data)
    else Skip
  }

  /** The backend's error event is shown as chat text as written, and
      raised as an error once corrected. */
  lemma ErrorEventShownAsText(msg: string)
    ensures ClassifyAsWritten(EventStream.ErrorMarker + " " + msg) == AppendText(EventStream.ErrorMarker + " " + msg)
    ensures Classify(EventStream.ErrorMarker + " " + msg) == Raise(msg)
  {
    var data := EventStream.ErrorMarker + " " + msg;
    assert data[..|EventStream.ErrorMarker|] == EventStream.ErrorMarker;
    assert |data| > |EventStream.ErrorMarker|;
  }

  /** The note `onerror` and the request's `catch` each append for an error. */
  function ErrorNote(message: string, fallback: string): string {
    "\n**Error:** " + (if message != [] then message else fallback)
  }

  /** The messages after an error raised while streaming: the error passes
      through `onerror` (which appends a note and rethrows) and then through
      the `catch` of `send` (which appends a second note). */
  function AfterStreamError(msgs: seq<Msg>, message: string): seq<Msg> {
    UpdateLastAiMessage(UpdateLastAiMessage(msgs, ErrorNote(message, "Connection failed")),
                        ErrorNote(message, "Unknown error"))
  }

  /** Consuming the events of one response: text is appended until an error
      is raised, which ends the stream; either way the stream is then no
      longer loading. */
  function Receive(page: Page, events: seq<string>, classify: string -> Reaction): (r: Page)
    ensures r.input == page.input && r.screenContext == page.screenContext
    ensures !r.loading && !r.streaming
    ensures |r.messages| == |page.messages|
    decreases |events|
  {
    if events == [] then page.(loading := false, streaming := false)
    else
      match classify(events[0])
      case Skip => Receive(page, events[1..], classify)
      case AppendText(chunk) => Receive(page.(messages := UpdateLastAiMessage(page.messages, chunk)), events[1..], classify)
      case Raise(message) => page.(messages := AfterStreamError(page.messages, message), loading := false, streaming := false)
  }

  /** The chunks a response appends when none of its events raises. */
  function Appended(events: seq<string>, classify: string -> Reaction): seq<string>
    decreases |events|
  {
    if events == [] then []
    else match classify(events[0])
      case AppendText(chunk) => [chunk] + Appended(events[1..], classify)
      case _ => Appended(events[1..], classify)
  }

  predicate NeverRaises(events: seq<string>, classify: string -> Reaction) {
    forall i :: 0 <= i < |events| ==> !classify(events[i]).Raise?
  }

  /** A response that raises nothing extends the last AI message by the
      concatenation of its text chunks and changes nothing else. */
  lemma {:induction false} ReceiveAppends(page: Page, events: seq<string>, classify: string -> Reaction)
    requires NeverRaises(events, classify)
    ensures Receive(page, events, classify).messages == UpdateLastAiMessage(page.messages, Concat(Appended(events, classify)))
    decreases |events|
  {
    if events == [] {
      UpdateAllIsConcat(page.messages, []);
    } else {
      assert NeverRaises(events[1..], classify) by {
        forall i | 0 <= i < |events[1..]| ensures !classify(events[1..][i]).Raise? {
          assert events[1..][i] == events[i + 1];
        }
      }
      assert !classify(events[0]).Raise?;
      ReceiveAppends(page, events[1..], classify);
      match classify(events[0])
      case Skip =>
      case AppendText(chunk) =>
        var p1 := page.(messages := UpdateLastAiMessage(page.messages, chunk));
        ReceiveAppends(p1, events[1..], classify);
        UpdateAllIsConcat(page.messages, [chunk] + Appended(events[1..], classify));
        UpdateAllIsConcat(p1.messages, Appended(events[1..], classify));
        assert ([chunk] + Appended(events[1..], classify))[1..] == Appended(events[1..], classify);
    }
  }

  lemma UpdateTwice(msgs: seq<Msg>, a: string, b: string)
    ensures UpdateLastAiMessage(UpdateLastAiMessage(msgs, a), b) == UpdateLastAiMessage(msgs, a + b)
  {
    if |msgs| > 0 && msgs[|msgs| - 1].role == Ai {
      assert msgs[|msgs| - 1].text + a + b == msgs[|msgs| - 1].text + (a + b);
    }
  }

  lemma {:induction false} ConcatSnoc(chunks: seq<string>, x: string)
    ensures Concat(chunks + [x]) == Concat(chunks) + x
    decreases |chunks|
  {
    if chunks == [] {
      assert [] + [x] == [x];
      assert [x][1..] == [];
    } else {
      assert (chunks + [x])[1..] == chunks[1..] + [x];
      ConcatSnoc(chunks[1..], x);
    }
  }

  /** A response whose events raise nothing until a final one raises ends
      with the text appended so far followed by the two error notes. */
  lemma {:induction false} ReceiveThenRaise(page: Page, events: seq<string>, last: string, classify: string -> Reaction)
    requires NeverRaises(events, classify) && classify(last).Raise?
    ensures Receive(page, events + [last], classify).messages
              == AfterStreamError(UpdateLastAiMessage(page.messages, Concat(Appended(events, classify))), classify(last).message)
    decreases |events|
  {
    var all := events + [last];
    if events == [] {
      assert all == [last];
      UpdateAllIsConcat(page.messages, []);
    } else {
      assert all[0] == events[0] && all[1..] == events[1..] + [last];
      assert NeverRaises(events[1..], classify) by {
        forall i | 0 <= i < |events[1..]| ensures !classify(events[1..][i]).Raise? {
          assert events[1..][i] == events[i + 1];
        }
      }
      assert !classify(events[0]).Raise?;
      match classify(events[0])
      case Skip =>
        ReceiveThenRaise(page, events[1..], last, classify);
      case AppendText(chunk) =>
        var p1 := page.(messages := UpdateLastAiMessage(page.messages, chunk));
        ReceiveThenRaise(p1, events[1..], last, classify);
        UpdateTwice(page.messages, chunk, Concat(Appended(events[1..], classify)));
        assert ([chunk] + Appended(events[1..], classify))[1..] == Appended(events[1..], classify);
    }
  }

  /** `cancelStream`: with a live request, loading stops and a cancellation
      note is appended to the AI message; otherwise nothing happens. */
  function CancelStream(page: Page): (r: Page)
    ensures !page.streaming ==> r == page
    ensures page.streaming ==>
              !r.loading && !r.streaming && r.messages == UpdateLastAiMessage(page.messages, "AI streaming cancelled.")
  {
    if page.streaming then
      page.(loading := false, streaming := false,
            messages := UpdateLastAiMessage(page.messages, "AI streaming cancelled."))
    else page
  }

  /** `clearChatMessages`: back to the initial page. */
  function ClearChatMessages(page: Page): (r: Page)
    ensures r == InitialPage
  {
    page.(messages := [], screenContext := None, input := [], streaming := false, loading := false)
  }

  /** `regenerateResponse`: for a user message at `index`, the list is cut
      back to the messages before it and the text to resend is its raw input
      (or its text); any other index changes nothing. */
  function RegenerateResponse(msgs: seq<Msg>, index: int): (r: Option<(seq<Msg>, string)>)
    ensures r.Some? <==> 0 <= index < |msgs| && msgs[index].role == User
    ensures r.Some? ==> r.value.0 == msgs[..index] && r.value.1 == ResendText(msgs[index])
  {
    if 0 <= index < |msgs| && msgs[index].role == User then Some((msgs[..index], ResendText(msgs[index])))
    else None
  }

  /** The index of the last user message, searched from the end. */
  method LastUserIndex(msgs: seq<Msg>) returns (r: Option<nat>)
    ensures r.Some? ==> r.value < |msgs| && msgs[r.value].role == User
    ensures r.Some? ==> forall j :: r.value < j < |msgs| ==> msgs[j].role == Ai
    ensures r.None? ==> forall j :: 0 <= j < |msgs| ==> msgs[j].role == Ai
  {
    var i := |msgs|;
    while i > 0
      invariant 0 <= i <= |msgs|
      invariant forall j :: i <= j < |msgs| ==> msgs[j].role == Ai
    {
      i := i - 1;
      if msgs[i].role == User {
        return Some(i);
      }
    }
    return None;
  }

  /** The reload shortcut: unless a reload is in progress, the last user
      message is regenerated and further reloads are locked out. */
  method ReloadLastMessage(msgs: seq<Msg>, reloading: bool) returns (locked: bool, r: Option<(seq<Msg>, string)>)
    ensures reloading ==> locked && r.None?
    ensures !reloading ==> (locked <==> r.Some?)
    ensures r.Some? ==> exists k :: 0 <= k < |msgs| && msgs[k].role == User
                                    && (forall j :: k < j < |msgs| ==> msgs[j].role == Ai)
                                    && r.value == (msgs[..k], ResendText(msgs[k]))
    ensures !reloading && r.None? ==> forall j :: 0 <= j < |msgs| ==> msgs[j].role == Ai
  {
    if reloading {
      return true, None;
    }
    var k := LastUserIndex(msgs);
    match k
    case None =>
      return false, None;
    case Some(i) =>
      r := RegenerateResponse(msgs, i);
      return true, r;
  }

  /** Regenerating the message a send added resends exactly what was sent. */
  lemma RegenerateResendsSent(page: Page, arg: Option<string>)
    requires Send(page, arg).Sent?
    ensures RegenerateResponse(Send(page, arg).page.messages, |page.messages|)
              == Some((page.messages, Trim(MessageToSend(page, arg))))
  {
    var p := Send(page, arg).page;
    assert p.messages[..|page.messages|] == page.messages;
  }
}

=== FILE: desktop_capture.dfy ===
/** The audio-capture controller of desktop/index.js: which control events
    reach the backend socket as the renderer starts, pauses, resumes, clears
    and stops a capture; the ffmpeg argument tables; the global-shortcut
    list; and the window-resize clamp.  Processes, signals, the socket
    connection and timers are state flags and separate steps. */
module DesktopCapture {
  import opened Wrappers

  /** `ffmpegProcess !== null`, `isAudioPaused`, `isClearingBuffer`,
      `currentRecordingMode` and `socket.connected`; `closing` lists the
      processes that were killed and whose `close` event is still to come,
      each with whether its `close` listener is still attached. */
  datatype Capture = Capture(process: bool, paused: bool, clearing: bool,
                             mode: Option<string>, connected: bool, closing: seq<bool>)

  const Idle := Capture(false, false, false, None, false, [])

  /** Control events emitted on the backend socket. */
  datatype Signal = StartStream(mode: string) | PauseStream | ResumeStream | ClearStream | StopStream

  /** `s` is emitted only while the socket is connected. */
  function IfConnected(c: Capture, s: Signal): (r: seq<Signal>)
    ensures r == [] || r == [s]
    ensures r == [s] <==> c.connected
  {
    if c.connected then [s] else []
  }

  /** `audio-pause`: acts only on a running, unpaused capture. */
  function AudioPause(c: Capture): (r: (Capture, seq<Signal>))
    ensures c.process && !c.paused ==> r == (c.(paused := true), IfConnected(c, PauseStream))
    ensures !(c.process && !c.paused) ==> r == (c, [])
  {
    if c.process && !c.paused then (c.(paused := true), IfConnected(c, PauseStream)) else (c, [])
  }

  /** `audio-resume`: acts only on a running, paused capture. */
  function AudioResume(c: Capture): (r: (Capture, seq<Signal>))
    ensures c.process && c.paused ==> r == (c.(paused := false), IfConnected(c, ResumeStream))
    ensures !(c.process && c.paused) ==> r == (c, [])
  {
    if c.process && c.paused then (c.(paused := false), IfConnected(c, ResumeStream)) else (c, [])
  }

  /** A second pause (or resume) changes nothing and emits nothing. */
  lemma PauseResumeIdempotent(c: Capture)
    ensures AudioPause(AudioPause(c).0) == (AudioPause(c).0, [])
    ensures AudioResume(AudioResume(c).0) == (AudioResume(c).0, [])
    ensures c.process ==> AudioResume(AudioPause(c).0).0 == c.(paused := false)
  {
  }

  /** `toggle-audio-pause-resume`. */
  function TogglePauseResume(c: Capture): (r: (Capture, seq<Signal>))
    ensures !c.process ==> r == (c, [])
    ensures c.process ==> r.0 == c.(paused := !c.paused)
    ensures c.process && c.connected ==> r.1 == [if c.paused then ResumeStream else PauseStream]
    ensures !c.connected ==> r.1 == []
  {
    if c.process then
      if c.paused then AudioResume(c) else AudioPause(c)
    else (c, [])
  }

  /** The ffmpeg `close` listener: the process is gone, and `stop_stream` is
      emitted unless a buffer clear is in progress. */
  function OnFfmpegClose(c: Capture): (r: (Capture, seq<Signal>))
    ensures !r.0.process
    ensures StopStream in r.1 <==> c.connected && !c.clearing
    ensures r.0 == c.(process := false)
  {
    (c.(process := false), if c.connected && !c.clearing then [StopStream] else [])
  }

  /** Killing the current process: the reference is dropped at once, and
      the process joins those whose `close` is still to come, with its
      listener attached unless it was removed before the kill. */
  function Kill(c: Capture, listening: bool): (r: Capture)
    ensures !r.process
    ensures c.process ==> r == c.(process := false, closing := c.closing + [listening])
    ensures !c.process ==> r == c
  {
    if c.process then c.(process := false, closing := c.closing + [listening]) else c
  }

  /** The `close` event of killed process `i`: it leaves the pending list,
      and only when its listener is still attached does the listener run,
      which forgets whatever process is current. */
  function OnKilledClose(c: Capture, i: nat): (r: (Capture, seq<Signal>))
    requires i < |c.closing|
    ensures |r.0.closing| == |c.closing| - 1
    ensures forall j :: 0 <= j < i ==> r.0.closing[j] == c.closing[j]
    ensures forall j :: i < j < |c.closing| ==> r.0.closing[j - 1] == c.closing[j]
    ensures !c.closing[i] ==> r.1 == [] && r.0 == c.(closing := r.0.closing)
    ensures c.closing[i] ==> !r.0.process && (StopStream in r.1 <==> c.connected && !c.clearing)
    ensures r.0.paused == c.paused && r.0.clearing == c.clearing && r.0.mode == c.mode
  {
    var c1 := c.(closing := c.closing[..i] + c.closing[i + 1..]);
    if c.closing[i] then OnFfmpegClose(c1) else (c1, [])
  }

  const MicName := "Microphone (Realtek(R) Audio)"
  const SpeakersName := "Stereo Mix (Realtek(R) Audio)"
  const OutputArgs := ["-ar", "16000", "-ac", "1", "-f", "s16le", "-"]
  const MixArgs := ["-filter_complex", "amix=inputs=2:duration=longest"]

  function DeviceInput(name: string): seq<string> {
    ["-f", "dshow", "-i", "audio=" + name]
  }

  predicate KnownMode(mode: string) {
    mode == "voice" || mode == "system" || mode == "both"
  }

  /** The ffmpeg arguments of `startAudioCapture`'s mode switch. */
  function FfmpegArgs(mode: string): (r: Option<seq<string>>)
    ensures r.Some? <==> KnownMode(mode)
    ensures r.Some? ==> |r.value| >= |OutputArgs| && r.value[|r.value| - |OutputArgs|..] == OutputArgs
    ensures r.Some? ==> ("-filter_complex" in r.value <==> mode == "both")
    ensures mode == "voice" ==> r == Some(DeviceInput(MicName) + OutputArgs)
    ensures mode == "system" ==> r == Some(DeviceInput(SpeakersName) + OutputArgs)
    ensures mode == "both" ==> r == Some(DeviceInput(MicName) + DeviceInput(SpeakersName) + MixArgs + OutputArgs)
  {
    match mode
    case "system" => Some(DeviceInput(SpeakersName) + OutputArgs)
    case "voice" => Some(DeviceInput(MicName) + OutputArgs)
    case "both" => Some(DeviceInput(MicName) + DeviceInput(SpeakersName) + MixArgs + OutputArgs)
    case _ => None
  }

  /** `startAudioCapture`: any running process is killed; a known mode
      spawns ffmpeg and announces the stream; an unknown mode fails without
      spawning.  `connected` is the socket state once the connection was
      ensured. */
  function StartAudioCapture(c: Capture, mode: string, connected: bool): (r: (Capture, seq<Signal>, bool))
    ensures r.2 <==> KnownMode(mode)
    ensures r.0.process <==> KnownMode(mode)
    ensures r.1 == if KnownMode(mode) && connected then [StartStream(mode)] else []
    ensures r.0.paused == c.paused && r.0.clearing == c.clearing && r.0.mode == c.mode
    ensures r.0.closing == Kill(c, true).closing
  {
    var c1 := Kill(c, true).(connected := connected);
    match FfmpegArgs(mode)
    case None => (c1, [], false)
    case Some(_) => (c1.(process := true), IfConnected(c1, StartStream(mode)), true)
  }

  /** `audio-start`: the mode is remembered and the capture (re)started;
      the boolean reports a failure sent back to the renderer. */
  function AudioStart(c: Capture, mode: string, connected: bool): (r: (Capture, seq<Signal>, bool))
    ensures r.0.mode == Some(mode)
    ensures r.2 <==> !KnownMode(mode)
    ensures r.0.process <==> KnownMode(mode)
    ensures r.0.closing == Kill(c, true).closing
  {
    var (c1, out, ok) := StartAudioCapture(Kill(c, true).(mode := Some(mode)), mode, connected);
    (c1, out, !ok)
  }

  /** `currentRecordingMode` is truthy. */
  predicate HasMode(c: Capture) {
    c.mode.Some? && c.mode.value != []
  }

  /** `audio-delete`: `clear_stream` is emitted; a running capture with a
      mode is killed with its close listener removed first, and `clearing`
      stays set until the restart; otherwise `clearing` ends false. */
  function AudioDelete(c: Capture): (r: (Capture, seq<Signal>))
    ensures r.1 == IfConnected(c, ClearStream)
    ensures StopStream !in r.1
    ensures r.0.clearing <==> c.process && HasMode(c)
    ensures c.process && HasMode(c) ==> !r.0.process && r.0.closing == c.closing + [false]
    ensures !(c.process && HasMode(c)) ==> r.0 == c.(clearing := false)
  {
    var c1 := c.(clearing := true);
    var out := IfConnected(c1, ClearStream);
    if c1.process && HasMode(c1) then (Kill(c1, false), out)
    else (c1.(clearing := false), out)
  }

  /** The delayed restart after a clear: capture restarts in the remembered
      mode and the clearing flag is reset. */
  function RestartAfterClear(c: Capture, connected: bool): (r: (Capture, seq<Signal>))
    requires HasMode(c)
    ensures !r.0.clearing
    ensures r.0.process <==> KnownMode(c.mode.value)
    ensures StopStream !in r.1 && ClearStream !in r.1
    ensures r.0.closing == Kill(c, true).closing
  {
    var (c1, out, _) := StartAudioCapture(c, c.mode.value, connected);
    (c1.(clearing := false), out)
  }

  /** Clearing a running capture never reports the stream as stopped: the
      killed process's `close` finds its listener removed whether it fires
      before or after the restart, and it leaves the restarted process in
      place.  The clearing flag is false again once the clear is complete,
      on either branch. */
  lemma ClearNeverStops(c: Capture, connected: bool)
    ensures var (c1, out1) := AudioDelete(c);
            StopStream !in out1
            && (c1.clearing ==>
                  var k := |c.closing|;
                  var (c2, out2) := RestartAfterClear(c1, connected);
                  HasMode(c1) && k < |c1.closing| && k < |c2.closing|
                  && OnKilledClose(c1, k).1 == [] && OnKilledClose(c2, k).1 == []
                  && OnKilledClose(c2, k).0.process == c2.process
                  && !RestartAfterClear(OnKilledClose(c1, k).0, connected).0.clearing
                  && !c2.clearing && StopStream !in out2)
            && (!c1.clearing ==> c1 == c.(clearing := false))
  {
  }

  /** A process killed with its listener attached, as `audio-start` and
      `audio-stop` kill it, still runs the listener when it closes: if a new
      capture has started meanwhile, that capture is forgotten and, unless a
      clear is in progress, `stop_stream` is sent for it. */
  lemma ListeningCloseForgetsCurrent(c: Capture, mode: string)
    requires c.process && !c.clearing && KnownMode(mode)
    ensures var (c1, out1, _) := AudioStart(c, mode, true);
            var k := |c.closing|;
            c1.process && out1 == [StartStream(mode)] && k < |c1.closing|
            && var (c2, out2) := OnKilledClose(c1, k);
               !c2.process && out2 == [StopStream]
  {
  }

  /** `audio-stop` as written: without a process nothing happens; otherwise
      `stop_stream` is emitted and the process and mode are cleared, while
      the paused flag is kept. */
  function AudioStopAsWritten(c: Capture): (r: (Capture, seq<Signal>))
    ensures !c.process ==> r == (c, [])
    ensures c.process ==> r.0 == Kill(c, true).(mode := None) && r.1 == IfConnected(c, StopStream)
  {
    if !c.process then (c, [])
    else (Kill(c, true).(mode := None), IfConnected(c, StopStream))
  }

  /** `audio-stop` with the paused flag reset along with the process. */
  function AudioStop(c: Capture): (r: (Capture, seq<Signal>))
    ensures !c.process ==> r == (c, [])
    ensures c.process ==> r.0 == Kill(c, true).(mode := None, paused := false) && r.1 == IfConnected(c, StopStream)
  {
    if !c.process then (c, [])
    else (Kill(c, true).(mode := None, paused := false), IfConnected(c, StopStream))
  }

  /** As written, stopping a paused capture and starting a new one leaves
      the new capture unpausable: its pause request emits nothing. */
  lemma PauseLostAfterPausedStop(c: Capture, mode: string)
    requires c.process && c.connected && KnownMode(mode)
    ensures var paused := AudioPause(c).0;
            var next := AudioStart(AudioStopAsWritten(paused).0, mode, true).0;
            next.process && AudioPause(next).1 == []
  {
  }

  /** With the corrected stop, the new capture's pause reaches the backend. */
  lemma PauseAfterStopReachesBackend(c: Capture, mode: string)
    requires KnownMode(mode)
    ensures var next := AudioStart(AudioStop(c).0, mode, true).0;
            c.process ==> next.process && AudioPause(next).1 == [PauseStream]
  {
  }

  /** A global shortcut: accelerator and the command it sends. */
  datatype Shortcut = Shortcut(accelerator: string, action: string)

  const ShortcutTable: seq<Shortcut> := [
    Shortcut("CommandOrControl+Shift+9", "toggle-invisibility-shortcut"),
    Shortcut("CommandOrControl+Shift+0", "toggle-taskbar-shortcut"),
    Shortcut("CommandOrControl+Shift+1", "toggle-voice-recording"),
    Shortcut("CommandOrControl+Shift+2", "toggle-system-recording"),
    Shortcut("CommandOrControl+Shift+3", "toggle-both-recording"),
    Shortcut("CommandOrControl+Shift+4", "toggle-keyboard-shortcut"),
    Shortcut("CommandOrControl+Shift+5", "toggle-screen-analyzer"),
    Shortcut("CommandOrControl+Shift+J", "clear-chat-messages"),
    Shortcut("CommandOrControl+Shift+K", "toggle-window-minimize"),
    Shortcut("CommandOrControl+Shift+6", "toggle-audio-pause-resume"),
    Shortcut("CommandOrControl+Shift+7", "delete-audio-buffer")
  ]

  predicate Registered(list: seq<Shortcut>, accelerator: string) {
    exists i :: 0 <= i < |list| && list[i].accelerator == accelerator
  }

  predicate NoDuplicateAccelerators(list: seq<Shortcut>) {
    forall i, j :: 0 <= i < j < |list| ==> list[i].accelerator != list[j].accelerator
  }

  /** `registerGlobalShortcuts` over the remaining table entries: an entry is
      skipped when its accelerator is already registered, and added only
      when the system accepts it (`register`). */
  function RegisterShortcuts(list: seq<Shortcut>, pending: seq<Shortcut>, register: string -> bool): (r: seq<Shortcut>)
    requires NoDuplicateAccelerators(list)
    ensures NoDuplicateAccelerators(r)
    ensures |list| <= |r| && r[..|list|] == list
    ensures forall i :: |list| <= i < |r| ==> r[i] in pending && register(r[i].accelerator)
    ensures forall e :: e in pending && register(e.accelerator) ==> Registered(r, e.accelerator)
    decreases |pending|
  {
    if pending == [] then list
    else
      var e := pending[0];
      AppendFresh(list, e);
      var list1 := if !Registered(list, e.accelerator) && register(e.accelerator) then list + [e] else list;
      var r := RegisterShortcuts(list1, pending[1..], register);
      RegisterStep(list, pending, register, list1, r);
      r
  }

  lemma AppendFresh(list: seq<Shortcut>, e: Shortcut)
    requires NoDuplicateAccelerators(list)
    ensures !Registered(list, e.accelerator) ==> NoDuplicateAccelerators(list + [e])
  {
  }

  /** One step of `RegisterShortcuts`: what the rest of the table yields
      from the extended list holds of the whole table from the original. */
  lemma RegisterStep(list: seq<Shortcut>, pending: seq<Shortcut>, register: string -> bool,
                     list1: seq<Shortcut>, r: seq<Shortcut>)
    requires pending != []
    requires list1 == if !Registered(list, pending[0].accelerator) && register(pending[0].accelerator)
                      then list + [pending[0]] else list
    requires |list1| <= |r| && r[..|list1|] == list1
    requires forall i :: |list1| <= i < |r| ==> r[i] in pending[1..] && register(r[i].accelerator)
    requires forall e :: e in pending[1..] && register(e.accelerator) ==> Registered(r, e.accelerator)
    ensures |list| <= |r| && r[..|list|] == list
    ensures forall i :: |list| <= i < |r| ==> r[i] in pending && register(r[i].accelerator)
    ensures forall e :: e in pending && register(e.accelerator) ==> Registered(r, e.accelerator)
  {
    var e := pending[0];
    assert r[..|list|] == r[..|list1|][..|list|];
    assert forall x :: x in pending[1..] ==> x in pending;
    if Registered(list, e.accelerator) {
      var i :| 0 <= i < |list| && list[i].accelerator == e.accelerator;
      assert r[i] == list[i];
    } else if register(e.accelerator) {
      assert r[|list|] == e;
    }
  }

  /** `unregisterGlobalShortcuts`. */
  function UnregisterShortcuts(list: seq<Shortcut>): (r: seq<Shortcut>)
    ensures forall a :: !Registered(r, a)
  {
    []
  }

  /** `toggle-commands`. */
  function ToggleCommands(list: seq<Shortcut>, enabled: bool, register: string -> bool): (r: seq<Shortcut>)
    requires NoDuplicateAccelerators(list)
    ensures NoDuplicateAccelerators(r)
    ensures !enabled ==> r == []
    ensures enabled ==> forall e :: e in ShortcutTable && register(e.accelerator) ==> Registered(r, e.accelerator)
  {
    if enabled then RegisterShortcuts(list, ShortcutTable, register) else UnregisterShortcuts(list)
  }

  /** Enabling commands a second time registers nothing new. */
  lemma {:induction false} RegisterTwiceAddsNothing(list: seq<Shortcut>, pending: seq<Shortcut>, register: string -> bool)
    requires NoDuplicateAccelerators(list)
    requires forall e :: e in pending && register(e.accelerator) ==> Registered(list, e.accelerator)
    ensures RegisterShortcuts(list, pending, register) == list
    decreases |pending|
  {
    if pending != [] {
      assert forall e :: e in pending[1..] ==> e in pending;
      RegisterTwiceAddsNothing(list, pending[1..], register);
    }
  }

  /** Window bounds of the `resize-window` handler, in whole pixels. */
  datatype Bounds = Bounds(width: int, height: int)

  /** The height is clamped to the work area; bounds are set only when the
      clamped height differs from the current one. */
  function Resize(width: int, height: int, workAreaHeight: int, currentHeight: int): (r: Option<Bounds>)
    ensures r.Some? ==> r.value.width == width
    ensures r.Some? ==> r.value.height <= workAreaHeight && r.value.height <= height
    ensures r.Some? ==> r.value.height == workAreaHeight || r.value.height == height
    ensures r.None? <==> (if height < workAreaHeight then height else workAreaHeight) == currentHeight
  {
    var safeHeight := if height < workAreaHeight then height else workAreaHeight;
    if safeHeight != currentHeight then Some(Bounds(width, safeHeight)) else None
  }

  /** Repeating a request once it has been applied changes nothing. */
  lemma ResizeSettles(width: int, height: int, workAreaHeight: int, currentHeight: int)
    requires Resize(width, height, workAreaHeight, currentHeight).Some?
    ensures Resize(width, height, workAreaHeight, Resize(width, height, workAreaHeight, currentHeight).value.height).None?
  {
  }
}

=== FILE: event_stream.dfy ===
/** The server-sent-events wire format of the chat stream: how
    backend/ai_model.py frames each model delta, and how a receiver
    interprets the bytes, following the event-stream interpretation of
    section 9.2 (Server-sent events) of the WHATWG HTML Living Standard.
    Only the `data` field is tracked; `event`, `id` and `retry` are
    recognised by the standard but play no part in this protocol. */
module EventStream {
  import opened Wrappers
  import opened Text

  /** The receiver's state: the line being read, the data buffer, whether
      the previous character was a CR (so that a following LF is part of the
      same line break), and the `data` of every event dispatched so far. */
  datatype Receiver = Receiver(line: string, data: string, afterCR: bool, events: seq<string>)

  const Fresh := Receiver([], [], false, [])

  /** A receiver between events: no partial line and an empty data buffer. */
  predicate AtEventBoundary(p: Receiver) {
    p.line == [] && p.data == [] && !p.afterCR
  }

  /** Position of the first occurrence of `c` in `s`. */
  function FirstIndex(s: string, c: char): (r: Option<nat>)
    ensures r.Some? ==> r.value < |s| && s[r.value] == c && c !in s[..r.value]
    ensures r.None? ==> c !in s
  {
    if s == [] then None
    else if s[0] == c then Some(0)
    else match FirstIndex(s[1..], c)
      case None => None
      case Some(k) => assert s[..k + 1] == [s[0]] + s[1..][..k]; Some(k + 1)
  }

  /** Field name and value of a non-comment line: split at the first colon,
      dropping one space after it; a line without a colon is a field name
      with an empty value. */
  function FieldAndValue(line: string): (string, string) {
    match FirstIndex(line, ':')
    case None => (line, [])
    case Some(k) =>
      (line[..k], if k + 1 < |line| && line[k + 1] == ' ' then line[k + 2..] else line[k + 1..])
  }

  function DropFinalLF(s: string): string {
    if |s| > 0 && s[|s| - 1] == '\n' then s[..|s| - 1] else s
  }

  /** Processing one complete line: a blank line dispatches the buffered
      event (if any data was buffered, without its final LF); a line starting
      with a colon is a comment; a `data` field appends its value and an LF
      to the buffer; other fields are ignored. */
  function ProcessLine(p: Receiver, line: string): Receiver {
    if line == [] then
      if p.data == [] then p
      else p.(data := [], events := p.events + [DropFinalLF(p.data)])
    else if line[0] == ':' then p
    else
      var (field, value) := FieldAndValue(line);
      if field == "data" then p.(data := p.data + value + "\n") else p
  }

  /** One character of the stream: CR, LF and CRLF end a line. */
  function Feed(p: Receiver, c: char): Receiver {
    if c == '\n' && p.afterCR then p.(afterCR := false)
    else if c == '\n' || c == '\r' then ProcessLine(p.(line := [], afterCR := c == '\r'), p.line)
    else p.(line := p.line + [c], afterCR := false)
  }

  function Run(p: Receiver, s: string): Receiver
    decreases |s|
  {
    if s == [] then p else Run(Feed(p, s[0]), s[1..])
  }

  /** The `data` of every event a fresh receiver dispatches for stream `s`;
      an unterminated final event is discarded. */
  function Parse(s: string): seq<string> {
    Run(Fresh, s).events
  }

  lemma {:induction false} RunAppend(p: Receiver, a: string, b: string)
    ensures Run(p, a + b) == Run(Run(p, a), b)
    decreases |a|
  {
    if a == [] {
      assert a + b == b;
    } else {
      assert (a + b)[0] == a[0] && (a + b)[1..] == a[1..] + b;
      RunAppend(Feed(p, a[0]), a[1..], b);
    }
  }

  predicate NoLineBreak(s: string) {
    '\n' !in s && '\r' !in s
  }

  /** Characters other than line breaks only extend the current line. */
  lemma {:induction false} RunWithinLine(p: Receiver, s: string)
    requires NoLineBreak(s)
    ensures Run(p, s) == p.(line := p.line + s, afterCR := if s == [] then p.afterCR else false)
    decreases |s|
  {
    if s != [] {
      assert s[1..] == s[1..] && '\n' !in s[1..] && '\r' !in s[1..];
      RunWithinLine(Feed(p, s[0]), s[1..]);
      assert p.line + [s[0]] + s[1..] == p.line + s;
    }
  }

  lemma FirstIndexAt(s: string, c: char, k: nat)
    requires k < |s| && s[k] == c && c !in s[..k]
    ensures FirstIndex(s, c) == Some(k)
  {
  }

  lemma RunLF(p: Receiver)
    ensures Run(p, "\n") == Feed(p, '\n')
  {
    assert "\n"[0] == '\n' && "\n"[1..] == [];
  }

  const DataPrefix := "data: "

  /** The payloads that end a chat response: normal completion, and the
      prefix of an error report. */
  const DoneMarker := "[DONE]"
  const ErrorMarker := "[ERROR]"

  lemma DataFieldValue(value: string)
    ensures FieldAndValue(DataPrefix + value) == ("data", value)
  {
    var body := DataPrefix + value;
    assert body[..4] == "data";
    assert body[4] == ':';
    assert ':' !in body[..4];
    FirstIndexAt(body, ':', 4);
    assert body[5] == ' ';
    assert body[6..] == value;
  }

  lemma DataLineWithinLine(p: Receiver, value: string)
    requires NoLineBreak(value)
    ensures Run(p, DataPrefix + value) == p.(line := p.line + DataPrefix + value, afterCR := false)
  {
    assert NoLineBreak(DataPrefix);
    assert NoLineBreak(DataPrefix + value);
    RunWithinLine(p, DataPrefix + value);
    assert p.line + (DataPrefix + value) == p.line + DataPrefix + value;
  }

  /** `data: L` followed by an LF appends `L` and an LF to the data buffer. */
  lemma DataLine(p: Receiver, value: string)
    requires p.line == [] && !p.afterCR && NoLineBreak(value)
    ensures Run(p, DataPrefix + value + "\n") == p.(data := p.data + value + "\n")
  {
    var body := DataPrefix + value;
    RunAppend(p, body, "\n");
    DataLineWithinLine(p, value);
    var p1 := p.(line := body, afterCR := false);
    assert Run(p, body) == p1;
    RunLF(p1);
    DataFieldValue(value);
    assert body != [] && body[0] == 'd';
    assert Feed(p1, '\n') == ProcessLine(p, body);
  }

  /** Framing as written in backend/ai_model.py: one `data:` line holding
      the whole delta, then a blank line. */
  function FrameAsWritten(delta: string): string {
    DataPrefix + delta + "\n\n"
  }

  /** One `data:` line per LF-separated line of `delta`. */
  function DataLines(delta: string): string
    decreases |delta|
  {
    match FirstIndex(delta, '\n')
    case None => DataPrefix + delta + "\n"
    case Some(k) => DataPrefix + delta[..k] + "\n" + DataLines(delta[k + 1..])
  }

  /** Framing as the standard requires for multi-line payloads: each line of
      the delta on its own `data:` line, then a blank line. */
  function Frame(delta: string): string {
    DataLines(delta) + "\n"
  }

  lemma {:induction false} DataLinesBuffer(p: Receiver, delta: string)
    requires p.line == [] && !p.afterCR && '\r' !in delta
    ensures Run(p, DataLines(delta)) == p.(data := p.data + delta + "\n")
    decreases |delta|
  {
    match FirstIndex(delta, '\n')
    case None =>
      DataLine(p, delta);
    case Some(k) =>
      var head := delta[..k];
      var tail := delta[k + 1..];
      assert '\r' !in head && '\r' !in tail by {
        assert forall c :: c in head ==> c in delta;
        assert forall c :: c in tail ==> c in delta;
      }
      DataLine(p, head);
      var p1 := p.(data := p.data + head + "\n");
      RunAppend(p, DataPrefix + head + "\n", DataLines(tail));
      DataLinesBuffer(p1, tail);
      assert delta == head + "\n" + tail;
      RegroupLines(p.data, head, tail);
  }

  lemma RegroupLines(d: string, head: string, tail: string)
    ensures d + head + "\n" + tail + "\n" == d + (head + "\n" + tail) + "\n"
  {
  }

  /** A corrected frame delivers exactly its delta as one event, provided the
      delta has no CR (a CR would read back as a line break). */
  lemma FrameRoundTrip(p: Receiver, delta: string)
    requires AtEventBoundary(p) && '\r' !in delta
    ensures Run(p, Frame(delta)) == p.(events := p.events + [delta])
  {
    DataLinesBuffer(p, delta);
    RunAppend(p, DataLines(delta), "\n");
    var q := p.(data := p.data + delta + "\n");
    assert Run(p, DataLines(delta)) == q;
    RunLF(q);
    assert q.data == delta + "\n";
    assert DropFinalLF(q.data) == delta;
    assert Feed(q, '\n') == ProcessLine(q, []);
  }

  function Frames(deltas: seq<string>, frame: string -> string): string
    decreases |deltas|
  {
    if deltas == [] then [] else frame(deltas[0]) + Frames(deltas[1..], frame)
  }

  /** A stream of corrected frames reads back as exactly its deltas, in order. */
  lemma {:induction false} FramesRoundTrip(p: Receiver, deltas: seq<string>)
    requires AtEventBoundary(p)
    requires forall i :: 0 <= i < |deltas| ==> '\r' !in deltas[i]
    ensures Run(p, Frames(deltas, Frame)) == p.(events := p.events + deltas)
    decreases |deltas|
  {
    if deltas != [] {
      RunAppend(p, Frame(deltas[0]), Frames(deltas[1..], Frame));
      FrameRoundTrip(p, deltas[0]);
      var p1 := p.(events := p.events + [deltas[0]]);
      FramesRoundTrip(p1, deltas[1..]);
      assert p.events + [deltas[0]] + deltas[1..] == p.events + deltas;
    }
  }

  /** Without line breaks the two framings coincide. */
  lemma FrameSingleLine(delta: string)
    requires '\n' !in delta
    ensures Frame(delta) == FrameAsWritten(delta)
  {
  }

  /** A stream of single-line deltas is framed identically either way. */
  lemma {:induction false} FramesSingleLine(deltas: seq<string>)
    requires forall i :: 0 <= i < |deltas| ==> '\n' !in deltas[i]
    ensures Frames(deltas, FrameAsWritten) == Frames(deltas, Frame)
    decreases |deltas|
  {
    if deltas != [] {
      FrameSingleLine(deltas[0]);
      FramesSingleLine(deltas[1..]);
    }
  }

  /** A line that is neither blank, a comment, nor a `data` field changes nothing. */
  lemma IgnoredLine(p: Receiver, line: string)
    requires line != [] && ':' !in line && line != "data"
    ensures ProcessLine(p, line) == p
  {
    assert FirstIndex(line, ':').None?;
  }

  /** The events dispatched after `data: L1`, LF, `L2`, LF, LF from a fresh receiver. */
  lemma TwoLineStream(l1: string, l2: string)
    requires NoLineBreak(l1) && NoLineBreak(l2) && ':' !in l2 && l2 != "data"
    ensures Run(Fresh, DataPrefix + l1 + "\n" + l2 + "\n" + "\n").events == [l1]
  {
    var s := DataPrefix + l1 + "\n" + l2 + "\n";
    RunAppend(Fresh, s, "\n");
    SecondLineRead(l1, l2);
    var p3 := Run(Fresh, s);
    RunLF(p3);
    assert DropFinalLF(l1 + "\n") == l1;
  }

  /** After `data: L1`, LF, `L2`, LF: an empty `L2` dispatched `L1`; any
      other `L2` was ignored and `L1` is still buffered. */
  lemma SecondLineRead(l1: string, l2: string)
    requires NoLineBreak(l1) && NoLineBreak(l2) && ':' !in l2 && l2 != "data"
    ensures Run(Fresh, DataPrefix + l1 + "\n" + l2 + "\n")
              == if l2 == [] then Receiver([], [], false, [l1]) else Receiver([], l1 + "\n", false, [])
  {
    var s := DataPrefix + l1 + "\n" + l2;
    RunAppend(Fresh, s, "\n");
    FirstLineRead(l1, l2);
    var p2 := Receiver(l2, l1 + "\n", false, []);
    RunLF(p2);
    if l2 != [] {
      IgnoredLine(p2.(line := []), l2);
    }
  }

  /** After `data: L1`, LF, `L2`: `L1` is buffered and `L2` is the current line. */
  lemma FirstLineRead(l1: string, l2: string)
    requires NoLineBreak(l1) && NoLineBreak(l2)
    ensures Run(Fresh, DataPrefix + l1 + "\n" + l2) == Receiver(l2, l1 + "\n", false, [])
  {
    var a := DataPrefix + l1 + "\n";
    RunAppend(Fresh, a, l2);
    DataLine(Fresh, l1);
    var p1 := Fresh.(data := l1 + "\n");
    assert Run(Fresh, a) == p1;
    RunWithinLine(p1, l2);
  }

  /** The as-written framing loses everything after the first LF of a
      delta: `L1 + "\n" + L2` reads back as `L1` when the second line is
      neither a `data` field nor a comment; the corrected framing delivers it whole. */
  lemma MultiLineDeltaTruncated(l1: string, l2: string)
    requires NoLineBreak(l1) && NoLineBreak(l2) && ':' !in l2 && l2 != "data"
    ensures Parse(FrameAsWritten(l1 + "\n" + l2)) == [l1]
    ensures Parse(Frame(l1 + "\n" + l2)) == [l1 + "\n" + l2]
  {
    assert FrameAsWritten(l1 + "\n" + l2) == DataPrefix + l1 + "\n" + l2 + "\n" + "\n";
    TwoLineStream(l1, l2);
    assert '\r' !in l1 + "\n" + l2;
    FrameRoundTrip(Fresh, l1 + "\n" + l2);
  }

  /** A concrete instance: the delta "a\nb" arrives as "a". */
  lemma MultiLineDeltaExample()
    ensures Parse(FrameAsWritten("a\nb")) == ["a"]
  {
    MultiLineDeltaTruncated("a", "b");
    assert "a" + "\n" + "b" == "a\nb";
  }

  /** Dispatched events are never withdrawn. */
  lemma {:induction false} EventsOnlyGrow(p: Receiver, s: string)
    ensures p.events <= Run(p, s).events
    decreases |s|
  {
    if s != [] {
      EventsOnlyGrow(Feed(p, s[0]), s[1..]);
    }
  }

  /** As written, the first event of a stream whose first frame carries a
      two-line delta holds only the delta's first line, whatever follows. */
  lemma FirstEventAsWritten(l1: string, l2: string, rest: string)
    requires NoLineBreak(l1) && NoLineBreak(l2) && ':' !in l2 && l2 != "data"
    ensures |Parse(FrameAsWritten(l1 + "\n" + l2) + rest)| > 0
    ensures Parse(FrameAsWritten(l1 + "\n" + l2) + rest)[0] == l1
  {
    var first := FrameAsWritten(l1 + "\n" + l2);
    MultiLineDeltaTruncated(l1, l2);
    RunAppend(Fresh, first, rest);
    EventsOnlyGrow(Run(Fresh, first), rest);
  }
}

=== FILE: input_text.dfy ===
/** The input bar of frontend/src/components/InputText.tsx: the recording
    state machine behind the mode menu and record button, the accumulation
    of transcripts into the input, and the message composed when the screen
    reader is on. */
module InputText {
  import opened Wrappers
  import opened Text
  import opened AudioControls

  /** Component state; `committed` is `committedRef.current`, `pending` the
      voice message waiting to be sent. */
  datatype Recorder = Recorder(mode: Mode, recording: bool, paused: bool, error: Option<string>,
                               pending: string, committed: string, input: string)

  const InitialRecorder := Recorder(Keyboard, false, false, None, [], [], [])

  /** `toggleRecording`; `apiAvailable` is whether the desktop bridge exists. */
  function ToggleRecording(r: Recorder, apiAvailable: bool): (res: (Recorder, seq<AudioCall>))
    ensures r.mode == Keyboard || !apiAvailable ==> res == (r, [])
    ensures r.mode != Keyboard && apiAvailable && !r.recording ==>
              res == (r.(recording := true, paused := false, error := None, pending := [], committed := []), [Start(r.mode)])
    ensures r.mode != Keyboard && apiAvailable && r.recording ==>
              res == (r.(recording := false, paused := false), [Stop])
  {
    if r.mode == Keyboard || !apiAvailable then (r, [])
    else if !r.recording then
      (r.(recording := true, paused := false, error := None, pending := [], committed := []), [Start(r.mode)])
    else (r.(recording := false, paused := false), [Stop])
  }

  /** `handleModeChange`: a running recording is stopped first; then the
      mode is set and the error, pending message and committed text cleared. */
  function HandleModeChange(r: Recorder, newMode: Mode, apiAvailable: bool): (res: (Recorder, seq<AudioCall>))
    ensures !res.0.recording && !(r.recording && res.0.paused)
    ensures res.0.mode == newMode && res.0.error == None && res.0.pending == [] && res.0.committed == []
    ensures res.0.input == r.input
    ensures res.1 == if r.recording && apiAvailable then [Stop] else []
    ensures !r.recording ==> res.0.paused == r.paused
  {
    var (r1, calls) := if r.recording then (r.(recording := false, paused := false), if apiAvailable then [Stop] else [])
                       else (r, []);
    (r1.(mode := newMode, error := None, pending := [], committed := []), calls)
  }

  /** Starting from any state and stopping again ends idle in an audio mode. */
  lemma StartStopEndsIdle(r: Recorder)
    requires r.mode != Keyboard && !r.recording
    ensures var (r1, c1) := ToggleRecording(r, true);
            var (r2, c2) := ToggleRecording(r1, true);
            c1 + c2 == [Start(r.mode), Stop] && !r2.recording && !r2.paused && r2.committed == []
  {
  }

  /** `onText`: the full transcript so far replaces input, committed and
      pending text. */
  function OnText(r: Recorder, text: string): (res: Recorder)
    ensures res.input == text && res.committed == text && res.pending == text
    ensures res.mode == r.mode && res.recording == r.recording && res.paused == r.paused
  {
    r.(input := text, committed := text, pending := text)
  }

  /** `prev ? prev + " " + text : text`. */
  function AppendWord(prev: string, text: string): string {
    if prev != [] then prev + " " + text else text
  }

  /** `onFinal`: a final transcript is appended, space-separated, to the
      input and the committed text, and the latter becomes pending. */
  function OnFinal(r: Recorder, text: string): (res: Recorder)
    ensures res.input == AppendWord(r.input, text) && res.committed == AppendWord(r.committed, text)
    ensures res.pending == res.committed
    ensures res.mode == r.mode && res.recording == r.recording && res.paused == r.paused
  {
    var committed := AppendWord(r.committed, text);
    r.(input := AppendWord(r.input, text), committed := committed, pending := committed)
  }

  function OnFinals(r: Recorder, texts: seq<string>): Recorder
    decreases |texts|
  {
    if texts == [] then r else OnFinals(OnFinal(r, texts[0]), texts[1..])
  }

  lemma {:induction false} JoinSnoc(xs: seq<string>, x: string, sep: string)
    requires |xs| > 0
    ensures Join(xs + [x], sep) == Join(xs, sep) + sep + x
    decreases |xs|
  {
    if |xs| == 1 {
      assert xs + [x] == [xs[0], x];
      assert [xs[0], x][1..] == [x];
    } else {
      assert (xs + [x])[1..] == xs[1..] + [x];
      JoinSnoc(xs[1..], x, sep);
    }
  }

  /** Non-empty final transcripts received after a start (which clears the
      committed text) accumulate to their space-separated join. */
  lemma {:induction false} FinalsJoin(r: Recorder, done: seq<string>, texts: seq<string>)
    requires forall i :: 0 <= i < |done| ==> done[i] != []
    requires forall i :: 0 <= i < |texts| ==> texts[i] != []
    requires r.committed == Join(done, " ")
    ensures OnFinals(r, texts).committed == Join(done + texts, " ")
    ensures texts != [] ==> OnFinals(r, texts).pending == Join(done + texts, " ")
    decreases |texts|
  {
    if texts == [] {
      assert done + texts == done;
    } else {
      var r1 := OnFinal(r, texts[0]);
      if done == [] {
        assert r1.committed == Join([texts[0]], " ");
      } else {
        assert done[0] != [];
        JoinSnoc(done, texts[0], " ");
      }
      assert done + texts == (done + [texts[0]]) + texts[1..];
      FinalsJoin(r1, done + [texts[0]], texts[1..]);
    }
  }

  /** `onError`: the error is shown and recording is considered stopped. */
  function OnError(r: Recorder, message: string): (res: Recorder)
    ensures res.error == Some(message) && !res.recording
    ensures res.mode == r.mode && res.committed == r.committed
  {
    r.(error := Some(message), recording := false)
  }

  /** `handleDeleteAudio`: the deleted audio's text leaves the input. */
  function HandleDeleteAudio(r: Recorder): (res: Recorder)
    ensures res.input == [] && res.pending == [] && res.committed == []
    ensures res.recording == r.recording && res.paused == r.paused
  {
    r.(input := [], pending := [], committed := [])
  }

  /** The screen analysis fields the context reads; `None` is an absent field. */
  datatype Analysis = Analysis(summary: Option<string>, ocrText: Option<string>, likelyIntent: Option<string>,
                               suggestedActions: Option<seq<string>>, uiElementTypes: Option<seq<string>>)

  predicate TruthyText(s: Option<string>) {
    s.Some? && s.value != []
  }

  predicate NonEmptyList(xs: Option<seq<string>>) {
    xs.Some? && |xs.value| > 0
  }

  const OcrLimit := 500
  const ActionLimit := 3
  const ElementLimit := 5

  /** The five optional lines of the context, each empty when its field is
      missing. */
  function ContextLines(a: Analysis): (r: seq<string>)
    ensures |r| == 5
  {
    [ if TruthyText(a.summary) then "Summary: " + a.summary.value else [],
      if TruthyText(a.ocrText) then "Visible Text: " + Prefix(a.ocrText.value, OcrLimit) + "..." else [],
      if TruthyText(a.likelyIntent) then "User likely wants to: " + a.likelyIntent.value else [],
      if NonEmptyList(a.suggestedActions) then "Suggested actions: " + Join(Take(a.suggestedActions.value, ActionLimit), ", ") else [],
      if NonEmptyList(a.uiElementTypes) then "UI Elements detected: " + Join(Take(a.uiElementTypes.value, ElementLimit), ", ") else [] ]
  }

  /** The `SCREEN ANALYSIS CONTEXT` template. */
  function ScreenContext(a: Analysis): string {
    var l := ContextLines(a);
    "\n  SCREEN ANALYSIS CONTEXT:\n  " + l[0] + "\n  " + l[1] + "\n  " + l[2] + "\n  " + l[3] + "\n  " + l[4] + "\n  "
  }

  /** The analysis cut down to what the context may read. */
  function Bounded(a: Analysis): (r: Analysis)
    ensures r.ocrText.Some? ==> |r.ocrText.value| <= OcrLimit
    ensures r.suggestedActions.Some? ==> |r.suggestedActions.value| <= ActionLimit
    ensures r.uiElementTypes.Some? ==> |r.uiElementTypes.value| <= ElementLimit
  {
    a.(ocrText := if a.ocrText.Some? then Some(Prefix(a.ocrText.value, OcrLimit)) else None,
       suggestedActions := if a.suggestedActions.Some? then Some(Take(a.suggestedActions.value, ActionLimit)) else None,
       uiElementTypes := if a.uiElementTypes.Some? then Some(Take(a.uiElementTypes.value, ElementLimit)) else None)
  }

  /** The context reads at most 500 characters of OCR text, 3 suggested
      actions and 5 UI element types: it is the same for the cut-down analysis. */
  lemma ContextIsBounded(a: Analysis)
    ensures ScreenContext(Bounded(a)) == ScreenContext(a)
  {
    var b := Bounded(a);
    if a.ocrText.Some? {
      var o := a.ocrText.value;
      assert Prefix(Prefix(o, OcrLimit), OcrLimit) == Prefix(o, OcrLimit);
      assert (Prefix(o, OcrLimit) != []) == (o != []);
    }
    if a.suggestedActions.Some? {
      var xs := a.suggestedActions.value;
      assert Take(Take(xs, ActionLimit), ActionLimit) == Take(xs, ActionLimit);
      assert (|Take(xs, ActionLimit)| > 0) == (|xs| > 0);
    }
    if a.uiElementTypes.Some? {
      var xs := a.uiElementTypes.value;
      assert Take(Take(xs, ElementLimit), ElementLimit) == Take(xs, ElementLimit);
      assert (|Take(xs, ElementLimit)| > 0) == (|xs| > 0);
    }
    assert ContextLines(b) == ContextLines(a);
  }

  const QueryLabel := "\nUSER QUERY: "
  const DescribePrompt := "\nWhat do you see on my screen? Please describe it and suggest actions based on what you see."
  const AnalysisFailedNote := "NOTE: Screen analysis failed.\n\n"

  /** What `handleSendWithScreenAnalysis` hands to the chat page: a plain
      send (with or without an argument), the page's `sendWithScreenContext`
      with context and trimmed query, or a combined message. */
  datatype Outgoing = PlainSend(arg: Option<string>) | WithScreen(context: string, query: string) | Combined(text: string)

  /** `voiceTranscription || input`. */
  function MessageToUse(input: string, voice: Option<string>): string {
    if TruthyText(voice) then voice.value else input
  }

  /** `handleSendWithScreenAnalysis`; `analysis` is `None` when capture or
      analysis failed, and `pageHandler` whether the page registered its
      screen-context send. */
  function ComposeOutgoing(input: string, voice: Option<string>, screenReader: bool,
                           analysis: Option<Analysis>, pageHandler: bool): (r: Outgoing)
    ensures !screenReader ==> r == PlainSend(if IsBlank(MessageToUse(input, voice)) then None else Some(MessageToUse(input, voice)))
    ensures screenReader && analysis.None? ==>
              r == Combined(AnalysisFailedNote + (if IsBlank(MessageToUse(input, voice)) then [] else QueryLabel + MessageToUse(input, voice)))
    ensures screenReader && analysis.Some? && pageHandler ==>
              r == WithScreen(ScreenContext(analysis.value), Trim(MessageToUse(input, voice)))
    ensures screenReader && analysis.Some? && !pageHandler ==>
              r == Combined(ScreenContext(analysis.value) +
                            if IsBlank(MessageToUse(input, voice)) then DescribePrompt else QueryLabel + MessageToUse(input, voice))
  {
    var message := MessageToUse(input, voice);
    if IsBlank(message) && !screenReader then PlainSend(None)
    else if screenReader then
      match analysis
      case Some(a) =>
        var context := ScreenContext(a);
        if pageHandler then WithScreen(context, Trim(message))
        else Combined(context + if !IsBlank(message) then QueryLabel + message else DescribePrompt)
      case None =>
        Combined(AnalysisFailedNote + if !IsBlank(message) then QueryLabel + message else [])
    else PlainSend(Some(message))
  }

  /** With the screen reader on, the query is never dropped: a non-blank
      message appears after the query label in whatever is sent. */
  lemma QueryAlwaysForwarded(input: string, voice: Option<string>, analysis: Option<Analysis>, pageHandler: bool)
    requires !IsBlank(MessageToUse(input, voice))
    ensures var r := ComposeOutgoing(input, voice, true, analysis, pageHandler);
            var m := MessageToUse(input, voice);
            (r.WithScreen? && r.query == Trim(m))
            || (r.Combined? && exists p :: r.text == p + QueryLabel + m)
  {
    var m := MessageToUse(input, voice);
    match analysis
    case Some(a) =>
      if !pageHandler {
        assert ScreenContext(a) + (QueryLabel + m) == ScreenContext(a) + QueryLabel + m;
      }
    case None =>
      assert AnalysisFailedNote + (QueryLabel + m) == AnalysisFailedNote + QueryLabel + m;
  }
}

=== FILE: pipeline.dfy ===
/** Properties of the assembled system: a control pressed in the browser
    reaches the transcription worker through the desktop process and the
    socket server, a chat response streamed by the backend reaches the chat
    page, and a screen-aware message shows the user's query. */
module Pipeline {
  import opened Wrappers
  import opened Text
  import SessionStore
  import Transcriber
  import DesktopCapture
  import AudioControls
  import EventStream
  import AiModel
  import ChatPage
  import InputText

  /** The server event a desktop signal arrives as. */
  function ToServer(s: DesktopCapture.Signal, workerAlive: bool): SessionStore.Event {
    match s
    case StartStream(_) => SessionStore.StartStream(workerAlive)
    case PauseStream => SessionStore.PauseStream
    case ResumeStream => SessionStore.ResumeStream
    case ClearStream => SessionStore.ClearStream
    case StopStream => SessionStore.StopStream
  }

  function ToServerAll(signals: seq<DesktopCapture.Signal>, workerAlive: bool): (r: seq<SessionStore.Event>)
    ensures |r| == |signals|
  {
    if signals == [] then [] else [ToServer(signals[0], workerAlive)] + ToServerAll(signals[1..], workerAlive)
  }

  /** The pause button of a live recording pauses the capture, the server
      marks the session paused, and from then on its worker recognizes and
      emits nothing. */
  lemma PauseButtonSilencesWorker(props: AudioControls.Props, capture: DesktopCapture.Capture,
                                  clients: SessionStore.Clients, sid: SessionStore.Sid,
                                  local: Transcriber.WorkerLocal, model: Transcriber.Recognizer, fuel: nat)
    requires props.isRecording && !props.isPaused && props.bridge
    requires capture.process && !capture.paused && capture.connected
    requires sid in clients
    ensures AudioControls.HandlePausePlayToggle(props)[1] == AudioControls.Call(AudioControls.Pause)
    ensures var (c1, signals) := DesktopCapture.AudioPause(capture);
            var clients1 := SessionStore.Run(clients, sid, ToServerAll(signals, true));
            c1.paused && signals == [DesktopCapture.PauseStream]
            && sid in clients1 && clients1[sid].paused
            && Transcriber.RunWorker(clients1, sid, local, model, fuel)
                 == Transcriber.StepResult(clients1, local, Transcriber.Sleep, false, None)
  {
    var (c1, signals) := DesktopCapture.AudioPause(capture);
    var clients1 := SessionStore.Run(clients, sid, ToServerAll(signals, true));
    assert ToServerAll(signals, true) == [SessionStore.PauseStream];
    assert [SessionStore.PauseStream][1..] == [];
    assert clients1 == SessionStore.OnPauseStream(clients, sid);
    Transcriber.PausedNeverEmits(clients1, sid, local, model, fuel);
  }

  /** The delete button of a live recording clears the capture without
      ever reporting the stream stopped: the server empties the session's
      buffer and unpauses it, and a running session's worker goes on
      sleeping rather than exiting. */
  lemma DeleteButtonClearsSession(props: AudioControls.Props, capture: DesktopCapture.Capture,
                                  clients: SessionStore.Clients, sid: SessionStore.Sid,
                                  local: Transcriber.WorkerLocal, model: Transcriber.Recognizer)
    requires props.isRecording && props.bridge
    requires capture.process && DesktopCapture.HasMode(capture) && capture.connected
    requires sid in clients && !clients[sid].stopped
    ensures AudioControls.HandleDelete(props)[0] == AudioControls.Call(AudioControls.Delete)
    ensures var (c1, signals) := DesktopCapture.AudioDelete(capture);
            var clients1 := SessionStore.Run(clients, sid, ToServerAll(signals, true));
            c1.clearing && signals == [DesktopCapture.ClearStream]
            && clients1 == SessionStore.OnClearStream(clients, sid)
            && sid in clients1 && clients1[sid].rawBuffer == [] && !clients1[sid].paused && !clients1[sid].stopped
            && Transcriber.Step(clients1, sid, local, model) == Transcriber.StepResult(clients1, local, Transcriber.Sleep, false, None)
  {
    var (c1, signals) := DesktopCapture.AudioDelete(capture);
    assert ToServerAll(signals, true) == [SessionStore.ClearStream];
    assert [SessionStore.ClearStream][1..] == [];
  }

  /** A delta the page treats as text: neither the completion marker nor an
      error report. */
  predicate PlainDeltas(stream: AiModel.ModelStream) {
    forall i :: 0 <= i < |stream.deltas| && stream.deltas[i].Some? ==>
      stream.deltas[i].value != EventStream.DoneMarker && !StartsWith(stream.deltas[i].value, EventStream.ErrorMarker)
  }

  lemma {:induction false} AppendedPrefix(ds: seq<string>, tail: seq<string>, classify: string -> ChatPage.Reaction)
    requires forall i :: 0 <= i < |ds| ==> classify(ds[i]) == ChatPage.AppendText(ds[i])
    ensures ChatPage.Appended(ds + tail, classify) == ds + ChatPage.Appended(tail, classify)
    decreases |ds|
  {
    if ds == [] {
      assert ds + tail == tail;
    } else {
      assert (ds + tail)[0] == ds[0] && (ds + tail)[1..] == ds[1..] + tail;
      AppendedPrefix(ds[1..], tail, classify);
    }
  }

  /** The forwarded deltas of a plain stream are appended as text by both
      versions of the page's event handler. */
  lemma PlainPayloads(stream: AiModel.ModelStream, ds: seq<string>)
    requires PlainDeltas(stream) && ds == AiModel.NonEmptyDeltas(stream.deltas)
    ensures forall i :: 0 <= i < |ds| ==> ChatPage.Classify(ds[i]) == ChatPage.AppendText(ds[i])
    ensures forall i :: 0 <= i < |ds| ==> ChatPage.ClassifyAsWritten(ds[i]) == ChatPage.AppendText(ds[i])
  {
    forall i | 0 <= i < |ds|
      ensures ChatPage.Classify(ds[i]) == ChatPage.AppendText(ds[i])
      ensures ChatPage.ClassifyAsWritten(ds[i]) == ChatPage.AppendText(ds[i])
    {
      assert ds[i] in ds;
      assert Some(ds[i]) in stream.deltas;
    }
  }

  /** With the corrected framing and the corrected event handler, a
      completed response extends the pending AI message by exactly the
      forwarded deltas; a failed one adds the two error notes after them. */
  lemma ResponseReachesChat(page: ChatPage.Page, stream: AiModel.ModelStream)
    requires AiModel.NoCarriageReturn(stream) && PlainDeltas(stream)
    ensures var events := EventStream.Parse(AiModel.ResponseBody(stream));
            var text := ChatPage.Concat(AiModel.NonEmptyDeltas(stream.deltas));
            var shown := ChatPage.UpdateLastAiMessage(page.messages, text);
            var r := ChatPage.Receive(page, events, ChatPage.Classify);
            (stream.failure.None? ==> r.messages == shown)
            && (stream.failure.Some? ==> r.messages == ChatPage.AfterStreamError(shown, stream.failure.value))
  {
    var ds := AiModel.NonEmptyDeltas(stream.deltas);
    var events := AiModel.EventPayloads(stream);
    AiModel.ResponseRoundTrip(stream);
    PlainPayloads(stream, ds);
    assert events == ds + [events[|events| - 1]];
    var last := events[|events| - 1];
    AppendedPrefix(ds, [last], ChatPage.Classify);
    if stream.failure.None? {
      assert ChatPage.Appended([last], ChatPage.Classify) == [];
      assert ds + [] == ds;
      ChatPage.ReceiveAppends(page, events, ChatPage.Classify);
    } else {
      ChatPage.ErrorEventShownAsText(stream.failure.value);
      assert last == EventStream.ErrorMarker + " " + stream.failure.value;
      AppendedPrefix(ds, [], ChatPage.Classify);
      assert ds + [] == ds;
      assert ChatPage.NeverRaises(ds, ChatPage.Classify);
      ChatPage.ReceiveThenRaise(page, ds, last, ChatPage.Classify);
    }
  }

  /** As written on both ends, a failed response of single-line deltas
      ends up in the chat as text: the deltas followed by the literal
      `[ERROR] <message>`. */
  lemma FailedResponseShownAsText(page: ChatPage.Page, stream: AiModel.ModelStream)
    requires AiModel.SingleLine(stream) && PlainDeltas(stream) && stream.failure.Some?
    ensures var events := EventStream.Parse(AiModel.ResponseBodyAsWritten(stream));
            var text := ChatPage.Concat(AiModel.NonEmptyDeltas(stream.deltas));
            ChatPage.Receive(page, events, ChatPage.ClassifyAsWritten).messages
              == ChatPage.UpdateLastAiMessage(page.messages, text + (EventStream.ErrorMarker + " " + stream.failure.value))
  {
    var ds := AiModel.NonEmptyDeltas(stream.deltas);
    var last := EventStream.ErrorMarker + " " + stream.failure.value;
    AiModel.ResponseAsWrittenRoundTrip(stream);
    PlainPayloads(stream, ds);
    assert AiModel.EventPayloads(stream) == ds + [last];
    ChatPage.ErrorEventShownAsText(stream.failure.value);
    AllShownAsText(page, ds, last);
  }

  /** Text events followed by one more text event are all appended. */
  lemma AllShownAsText(page: ChatPage.Page, ds: seq<string>, last: string)
    requires forall i :: 0 <= i < |ds| ==> ChatPage.ClassifyAsWritten(ds[i]) == ChatPage.AppendText(ds[i])
    requires ChatPage.ClassifyAsWritten(last) == ChatPage.AppendText(last)
    ensures ChatPage.Receive(page, ds + [last], ChatPage.ClassifyAsWritten).messages
              == ChatPage.UpdateLastAiMessage(page.messages, ChatPage.Concat(ds) + last)
  {
    var events := ds + [last];
    AppendedPrefix(ds, [last], ChatPage.ClassifyAsWritten);
    assert ChatPage.Appended([last], ChatPage.ClassifyAsWritten) == [last];
    assert ChatPage.NeverRaises(events, ChatPage.ClassifyAsWritten) by {
      forall i | 0 <= i < |events| ensures !ChatPage.ClassifyAsWritten(events[i]).Raise? {
        if i < |ds| {
          assert events[i] == ds[i];
        }
      }
    }
    ChatPage.ReceiveAppends(page, events, ChatPage.ClassifyAsWritten);
    ChatPage.ConcatSnoc(ds, last);
  }

  /** The JSON body the page posts, as the backend decodes it. */
  function ToPayload(request: seq<ChatPage.Outbound>): AiModel.Payload {
    AiModel.Payload(Some(seq(|request|, i requires 0 <= i < |request| =>
                          AiModel.InMessage(Some(request[i].role), Some(request[i].content), None))),
                    None, None)
  }

  /** The backend forwards the page's messages unchanged after its system
      prompt, and never receives earlier reasoning from this page. */
  lemma RequestForwarded(history: seq<ChatPage.Msg>, sc: Option<string>, raw: string)
    ensures var request := ChatPage.RequestMessages(history, sc, raw);
            var msgs := AiModel.EffectiveMessages(ToPayload(request));
            |msgs| == |request|
            && (forall i :: 0 <= i < |request| ==>
                  AiModel.Normalized(msgs[i]) == AiModel.ChatMessage(request[i].role, request[i].content))
            && AiModel.LastAssistantReasoning(msgs) == None
            && AiModel.ExtraBody(AiModel.LastAssistantReasoning(msgs)).previous == None
  {
    var request := ChatPage.RequestMessages(history, sc, raw);
    var msgs := AiModel.EffectiveMessages(ToPayload(request));
    assert msgs == ToPayload(request).messages.value;
    AiModel.NoReasoningNoPrior(msgs);
  }

  /** Trimming a message built around the query marker removes only the
      outer whitespace of the two parts. */
  lemma TrimAroundMarker(a: string, q: string)
    requires !IsBlank(q)
    ensures Trim(a + ChatPage.QueryMarker + q) == TrimStart(a) + ChatPage.QueryMarker + TrimEnd(q)
  {
    TrimAround(a, ChatPage.QueryMarker, q);
  }

  /** A message `<context>USER QUERY:<query>` sent from an empty input box
      is shown as the trimmed query. */
  lemma MarkedMessageShowsQuery(page: ChatPage.Page, a: string, q: string)
    requires IsBlank(page.input)
    requires !Contains(a, ChatPage.QueryMarker) && !Contains(q, ChatPage.QueryMarker) && !IsBlank(q)
    ensures var r := ChatPage.Send(page, Some(a + ChatPage.QueryMarker + q));
            r.Sent? && r.page.messages[|page.messages|].text == Trim(q)
  {
    var la := |a| - |TrimStart(a)|;
    var b := |TrimEnd(q)|;
    TrimAroundMarker(a, q);
    NoMarkerInParts(a, q, la, b);
    TrimDropSpaces(q, b);
    ShowsQueryAt(page, a + ChatPage.QueryMarker + q, TrimStart(a), TrimEnd(q), q);
  }

  lemma NoMarkerInParts(a: string, q: string, la: nat, b: nat)
    requires la <= |a| && b <= |q|
    requires !Contains(a, ChatPage.QueryMarker) && !Contains(q, ChatPage.QueryMarker)
    ensures !Contains(a[la..], ChatPage.QueryMarker) && !Contains(q[..b], ChatPage.QueryMarker)
  {
    if Contains(a[la..], ChatPage.QueryMarker) {
      assert a[la..] == a[la..|a|];
      ContainsSlice(a, la, |a|, ChatPage.QueryMarker);
    }
    if Contains(q[..b], ChatPage.QueryMarker) {
      assert q[..b] == q[0..b];
      ContainsSlice(q, 0, b, ChatPage.QueryMarker);
    }
  }

  lemma ShowsQueryAt(page: ChatPage.Page, message: string, a1: string, q1: string, q: string)
    requires IsBlank(page.input)
    requires Trim(message) == a1 + ChatPage.QueryMarker + q1
    requires !Contains(a1, ChatPage.QueryMarker) && !Contains(q1, ChatPage.QueryMarker)
    requires Trim(q1) == Trim(q) && Trim(q) != []
    ensures var r := ChatPage.Send(page, Some(message));
            r.Sent? && r.page.messages[|page.messages|].text == Trim(q)
  {
    assert |Trim(message)| > 0;
    assert ChatPage.MessageToSend(page, Some(message)) == message;
    ChatPage.DisplayShowsQuery(a1, q1);
    ChatPage.SendDisplay(page, Some(message));
  }
}

=== FILE: screen_analyser.dfy ===
/** Defensive JSON extraction from a vision model's reply
    (`extract_json_from_text` and the fallback in `analyze_screenshot`,
    backend/screen_analyser.py).  JSON parsing itself is an uninterpreted
    function from text to an optional value. */
module ScreenAnalyser {
  import opened Wrappers
  import opened Text

  /** `json.loads`: a value, or `None` when it raises or when it returns
      Python `None` (the text `null`).  Reading both as `None` changes
      nothing: `null` holds no brace, so the scan that follows a `None`
      finds no candidate either, and the result is `None` as in the source. */
  type Parser<V> = string -> Option<V>

  /** The scan's stack depth after one more character: `{` pushes, `}` pops
      a non-empty stack and is otherwise ignored. */
  function DepthStep(d: nat, c: char): nat {
    if c == '{' then d + 1 else if c == '}' && d > 0 then d - 1 else d
  }

  /** Stack depth after scanning all of `s`. */
  function Depth(s: string): nat {
    if s == [] then 0 else DepthStep(Depth(s[..|s| - 1]), s[|s| - 1])
  }

  lemma DepthSnoc(t: string, i: nat)
    requires i < |t|
    ensures Depth(t[..i + 1]) == DepthStep(Depth(t[..i]), t[i])
  {
    assert t[..i + 1][..i] == t[..i];
  }

  /** `t[a..b+1]` is a top-level balanced object: its `{` opens at depth 0,
      the depth stays positive inside, and its `}` returns it to 0. */
  ghost predicate IsSpan(t: string, a: int, b: int) {
    0 <= a < b < |t| && t[a] == '{' && t[b] == '}' && Depth(t[..a]) == 0
    && (forall k :: a < k <= b ==> Depth(t[..k]) >= 1)
    && Depth(t[..b + 1]) == 0
  }

  /** The text a span denotes. */
  function Candidate(t: string, a: nat, b: nat): string
    requires a <= b < |t|
  {
    t[a..b + 1]
  }

  datatype Span = Span(open: nat, close: nat)

  /** What the scan state means at position `i`: `depth` is the stack
      height, and `start` is set exactly while inside a top-level object,
      at that object's opening brace. */
  ghost predicate ScanInv(t: string, i: nat, depth: nat, start: Option<nat>) {
    i <= |t| && depth == Depth(t[..i]) && (start.None? <==> depth == 0)
    && (start.Some? ==>
          start.value < i && t[start.value] == '{' && Depth(t[..start.value]) == 0
          && forall k :: start.value < k <= i ==> Depth(t[..k]) >= 1)
  }

  /** A span that has opened before `i` and not yet closed is the one the
      scan is inside. */
  lemma OpenSpanIsStart(t: string, i: nat, depth: nat, start: Option<nat>, a: nat, b: nat)
    requires ScanInv(t, i, depth, start) && IsSpan(t, a, b) && a < i <= b
    ensures start == Some(a)
  {
    assert Depth(t[..i]) >= 1;
  }

  /** The scan state after one more character, on the paths that go on scanning. */
  function NextStart(t: string, i: nat, depth: nat, start: Option<nat>): Option<nat>
    requires i < |t|
  {
    if t[i] == '{' && start.None? then Some(i)
    else if DepthStep(depth, t[i]) == 0 then None
    else start
  }

  lemma InvNext(t: string, i: nat, depth: nat, start: Option<nat>)
    requires ScanInv(t, i, depth, start) && i < |t|
    ensures ScanInv(t, i + 1, DepthStep(depth, t[i]), NextStart(t, i, depth, start))
  {
    DepthSnoc(t, i);
  }

  /** The loop of `extract_json_from_text` from position `i`, returning the
      span of the first candidate that parses. */
  function ScanFrom<V>(t: string, i: nat, depth: nat, start: Option<nat>, parse: Parser<V>): Option<Span>
    requires ScanInv(t, i, depth, start)
    decreases |t| - i
  {
    if i == |t| then None
    else
      InvNext(t, i, depth, start);
      if t[i] == '{' then
        ScanFrom(t, i + 1, depth + 1, if start.None? then Some(i) else start, parse)
      else if t[i] == '}' && depth > 0 then
        if depth - 1 == 0 && start.Some? then
          if parse(Candidate(t, start.value, i)).Some? then Some(Span(start.value, i))
          else ScanFrom(t, i + 1, 0, None, parse)
        else ScanFrom(t, i + 1, depth - 1, start, parse)
      else ScanFrom(t, i + 1, depth, start, parse)
  }

  /** Closing the outermost brace at `i` completes the span the scan is in. */
  lemma ClosingSpan(t: string, i: nat, depth: nat, start: Option<nat>)
    requires ScanInv(t, i, depth, start) && i < |t| && t[i] == '}' && depth == 1 && start.Some?
    ensures IsSpan(t, start.value, i)
  {
    DepthSnoc(t, i);
  }

  /** Only the span the scan is in can close at `i`, and only when `t[i]`
      brings the depth from 1 to 0. */
  lemma SpansEndingAt(t: string, i: nat, depth: nat, start: Option<nat>, a: nat)
    requires ScanInv(t, i, depth, start) && i < |t| && IsSpan(t, a, i)
    ensures t[i] == '}' && depth == 1 && start == Some(a)
  {
    DepthSnoc(t, i);
    OpenSpanIsStart(t, i, depth, start, a, i);
  }

  /** The candidates tried from position `i` on are exactly the top-level
      spans closing at or after `i`, in order; the first that parses is returned. */
  lemma {:induction false} ScanFromSpec<V>(t: string, i: nat, depth: nat, start: Option<nat>, parse: Parser<V>)
    requires ScanInv(t, i, depth, start)
    ensures var r := ScanFrom(t, i, depth, start, parse);
            r.Some? ==> IsSpan(t, r.value.open, r.value.close) && i <= r.value.close
                        && parse(Candidate(t, r.value.open, r.value.close)).Some?
    ensures var r := ScanFrom(t, i, depth, start, parse);
            r.Some? ==> forall a, b :: IsSpan(t, a, b) && i <= b < r.value.close ==> parse(Candidate(t, a, b)).None?
    ensures ScanFrom(t, i, depth, start, parse).None? ==>
              forall a, b :: IsSpan(t, a, b) && i <= b ==> parse(Candidate(t, a, b)).None?
    decreases |t| - i
  {
    if i < |t| {
      InvNext(t, i, depth, start);
      var closes := t[i] == '}' && depth == 1 && start.Some?;
      if closes {
        ClosingSpan(t, i, depth, start);
      }
      if !(closes && parse(Candidate(t, start.value, i)).Some?) {
        ScanFromSpec(t, i + 1, DepthStep(depth, t[i]), NextStart(t, i, depth, start), parse);
        forall a, b | IsSpan(t, a, b) && b == i ensures parse(Candidate(t, a, b)).None? {
          SpansEndingAt(t, i, depth, start, a);
        }
      }
    }
  }

  /** The brace-matching search over the whole (already stripped) text. */
  function FindSpan<V>(t: string, parse: Parser<V>): (r: Option<Span>)
    ensures r.Some? ==> IsSpan(t, r.value.open, r.value.close) && parse(Candidate(t, r.value.open, r.value.close)).Some?
    ensures r.Some? ==> forall a, b :: IsSpan(t, a, b) && b < r.value.close ==> parse(Candidate(t, a, b)).None?
    ensures r.None? ==> forall a, b :: IsSpan(t, a, b) ==> parse(Candidate(t, a, b)).None?
  {
    ScanFromSpec(t, 0, 0, None, parse);
    ScanFrom(t, 0, 0, None, parse)
  }

  /** `extract_json_from_text`: the stripped text if it parses as a whole,
      otherwise the first top-level balanced `{...}` span, left to right,
      that parses. */
  function ExtractJsonFromText<V>(text: string, parse: Parser<V>): (r: Option<V>)
    ensures parse(Trim(text)).Some? ==> r == parse(Trim(text))
    ensures parse(Trim(text)).None? && r.Some? ==>
              exists a, b :: IsSpan(Trim(text), a, b) && r == parse(Candidate(Trim(text), a, b))
                && forall a', b' :: IsSpan(Trim(text), a', b') && b' < b ==> parse(Candidate(Trim(text), a', b')).None?
    ensures r.None? ==> parse(Trim(text)).None?
                        && forall a, b :: IsSpan(Trim(text), a, b) ==> parse(Candidate(Trim(text), a, b)).None?
  {
    var t := Trim(text);
    if parse(t).Some? then parse(t)
    else
      match FindSpan(t, parse)
      case None => None
      case Some(sp) => parse(Candidate(t, sp.open, sp.close))
  }

  /** Text without any `{` that does not parse as a whole yields nothing. */
  lemma NoBraceNoJson<V>(text: string, parse: Parser<V>)
    requires '{' !in text && parse(Trim(text)).None?
    ensures ExtractJsonFromText(text, parse).None?
  {
    var t := Trim(text);
    if '{' in t { TrimChars(text, '{'); }
  }

  /** A nested object is never a candidate on its own: a `{` opened at
      positive depth starts no span. */
  lemma NestedNotCandidate(t: string, a: nat, b: nat)
    requires a < |t| && Depth(t[..a]) > 0
    ensures !IsSpan(t, a, b)
  {
  }

  /** The reply of `analyze_screenshot`: the parsed value, or the error
      payload carrying the raw text. */
  datatype ScreenAnalysis<V> = Parsed(value: V) | ParseFailed(error: string, raw: string)

  const JsonParseFailed := "JSON_PARSE_FAILED"

  /** The tail of `analyze_screenshot` once the model's text is known. */
  function AnalysisFromText<V>(text: string, parse: Parser<V>): (r: ScreenAnalysis<V>)
    ensures r.ParseFailed? <==> ExtractJsonFromText(text, parse).None?
    ensures r.ParseFailed? ==> r.error == JsonParseFailed && r.raw == text
    ensures r.Parsed? ==> Some(r.value) == ExtractJsonFromText(text, parse)
  {
    match ExtractJsonFromText(text, parse)
    case None => ParseFailed(JsonParseFailed, text)
    case Some(v) => Parsed(v)
  }
}

=== FILE: session_store.dfy ===
/** The backend's session table (`clients` in backend/server.py) and the
    Socket.IO handlers that mutate it, as pure transitions on a map from
    session id to session record.  Locking, logging and the 1.5 s deletion
    timer are not modelled: handler calls are a sequential interleaving. */
module SessionStore {

  type byte = bv8

  /** A Socket.IO session id (`request.sid`). */
  type Sid = string

  /** One entry of `clients`: the audio received so far, the two control
      flags, and whether a transcription thread object has been stored. */
  datatype Session = Session(rawBuffer: seq<byte>, stopped: bool, paused: bool, hasWorker: bool)

  type Clients = map<Sid, Session>

  /** An `audio_chunk` payload: binary data (`bytes`/`bytearray`) or anything else. */
  datatype Payload = Binary(bytes: seq<byte>) | NonBinary

  /** Result of `start_stream`: the new table and whether a worker thread was
      started, or the `KeyError` raised for a session that never connected. */
  datatype StartOutcome = Started(clients: Clients, spawned: bool) | KeyError

  /** Every session other than `sid` is untouched. */
  ghost predicate SameExcept(a: Clients, b: Clients, sid: Sid) {
    forall s :: s != sid ==> (s in a <==> s in b) && (s in a ==> a[s] == b[s])
  }

  /** `on_connect`: a fresh record with an empty buffer, both flags clear and no worker. */
  function OnConnect(clients: Clients, sid: Sid): (r: Clients)
    ensures sid in r
    ensures r[sid].rawBuffer == [] && !r[sid].stopped && !r[sid].paused && !r[sid].hasWorker
    ensures SameExcept(clients, r, sid)
  {
    clients[sid := Session([], false, false, false)]
  }

  /** `on_start_stream`: resets the buffer and both flags, then starts a
      worker unless one exists that is still alive.  Thread liveness is an
      observation the model receives as `workerAlive`. */
  function OnStartStream(clients: Clients, sid: Sid, workerAlive: bool): (r: StartOutcome)
    ensures r.KeyError? <==> sid !in clients
    ensures r.Started? ==> sid in r.clients && SameExcept(clients, r.clients, sid)
    ensures r.Started? ==> r.clients[sid].rawBuffer == [] && !r.clients[sid].stopped && !r.clients[sid].paused
    ensures r.Started? ==> r.clients[sid].hasWorker
    ensures r.Started? ==> (r.spawned <==> !(clients[sid].hasWorker && workerAlive))
  {
    if sid !in clients then KeyError
    else
      var spawn := !clients[sid].hasWorker || !workerAlive;
      Started(clients[sid := Session([], false, false, true)], spawn)
  }

  /** `on_pause_stream`: sets `paused` of a known session, nothing else. */
  function OnPauseStream(clients: Clients, sid: Sid): (r: Clients)
    ensures sid in clients ==> sid in r && r[sid] == clients[sid].(paused := true)
    ensures SameExcept(clients, r, sid)
    ensures sid !in clients ==> r == clients
  {
    if sid in clients then clients[sid := clients[sid].(paused := true)] else clients
  }

  /** `on_resume_stream`: clears `paused` of a known session, nothing else. */
  function OnResumeStream(clients: Clients, sid: Sid): (r: Clients)
    ensures sid in clients ==> sid in r && r[sid] == clients[sid].(paused := false)
    ensures SameExcept(clients, r, sid)
    ensures sid !in clients ==> r == clients
  {
    if sid in clients then clients[sid := clients[sid].(paused := false)] else clients
  }

  /** `on_clear_stream`: empties the buffer and clears `paused`; `stopped`
      and the worker are kept. */
  function OnClearStream(clients: Clients, sid: Sid): (r: Clients)
    ensures sid in clients ==> sid in r && r[sid].rawBuffer == [] && !r[sid].paused
    ensures sid in clients ==> r[sid].stopped == clients[sid].stopped && r[sid].hasWorker == clients[sid].hasWorker
    ensures SameExcept(clients, r, sid)
    ensures sid !in clients ==> r == clients
  {
    if sid in clients then clients[sid := clients[sid].(rawBuffer := [], paused := false)] else clients
  }

  /** `on_audio_chunk` as evidently intended (reading `request.sid`):
      non-binary payloads and unknown sessions are ignored, otherwise the
      bytes are appended to the buffer. */
  function OnAudioChunk(clients: Clients, sid: Sid, data: Payload): (r: Clients)
    ensures data.Binary? && sid in clients ==>
              sid in r && r[sid] == clients[sid].(rawBuffer := clients[sid].rawBuffer + data.bytes)
    ensures data.NonBinary? || sid !in clients ==> r == clients
    ensures SameExcept(clients, r, sid)
  {
    match data
    case NonBinary => clients
    case Binary(bytes) =>
      if sid in clients then clients[sid := clients[sid].(rawBuffer := clients[sid].rawBuffer + bytes)]
      else clients
  }

  /** `on_audio_chunk` as written: its first statement reads `request.sids`,
      an attribute the request object does not have, so every call raises
      `AttributeError` before the payload is looked at. */
  function OnAudioChunkAsWritten(clients: Clients, sid: Sid, data: Payload): (r: Clients)
    ensures r == clients
  {
    clients
  }

  /** As written, audio never reaches the buffer; the intended handler does
      grow it whenever a known session receives non-empty binary data. */
  lemma AudioChunkTypoDropsAudio(clients: Clients, sid: Sid, bytes: seq<byte>)
    requires sid in clients && |bytes| > 0
    ensures OnAudioChunkAsWritten(clients, sid, Binary(bytes)) != OnAudioChunk(clients, sid, Binary(bytes))
  {
    var r := OnAudioChunk(clients, sid, Binary(bytes));
    assert |r[sid].rawBuffer| == |clients[sid].rawBuffer| + |bytes|;
  }

  /** `on_stop_stream`: sets `stopped` of a known session, nothing else. */
  function OnStopStream(clients: Clients, sid: Sid): (r: Clients)
    ensures sid in clients ==> sid in r && r[sid] == clients[sid].(stopped := true)
    ensures SameExcept(clients, r, sid)
    ensures sid !in clients ==> r == clients
  {
    if sid in clients then clients[sid := clients[sid].(stopped := true)] else clients
  }

  /** Result of `on_disconnect`: the new table and whether the delayed
      removal (`cleanup`) was scheduled. */
  datatype Disconnected = Disconnected(clients: Clients, cleanupScheduled: bool)

  /** `on_disconnect`: a known session is marked stopped and its removal is
      scheduled; an unknown one is ignored. */
  function OnDisconnect(clients: Clients, sid: Sid): (r: Disconnected)
    ensures r.cleanupScheduled <==> sid in clients
    ensures sid in clients ==> sid in r.clients && r.clients[sid] == clients[sid].(stopped := true)
    ensures SameExcept(clients, r.clients, sid)
    ensures sid !in clients ==> r.clients == clients
  {
    Disconnected(OnStopStream(clients, sid), sid in clients)
  }

  /** The delayed `cleanup` of `on_disconnect`: removes the entry if it is
      still there; removing an absent entry changes nothing. */
  function Cleanup(clients: Clients, sid: Sid): (r: Clients)
    ensures sid !in r
    ensures SameExcept(clients, r, sid)
    ensures sid !in clients ==> r == clients
  {
    clients - {sid}
  }

  /** The handler events of one session, in the order the gateway delivers them. */
  datatype Event =
    | Connect
    | StartStream(workerAlive: bool)
    | PauseStream
    | ResumeStream
    | ClearStream
    | AudioChunk(data: Payload)
    | StopStream
    | Disconnect
    | CleanupTimer

  /** Applies one event for session `sid`; a handler that raises leaves the table as it was. */
  function Handle(clients: Clients, sid: Sid, e: Event): Clients {
    match e
    case Connect => OnConnect(clients, sid)
    case StartStream(alive) =>
      (match OnStartStream(clients, sid, alive) case Started(c, _) => c case KeyError => clients)
    case PauseStream => OnPauseStream(clients, sid)
    case ResumeStream => OnResumeStream(clients, sid)
    case ClearStream => OnClearStream(clients, sid)
    case AudioChunk(data) => OnAudioChunk(clients, sid, data)
    case StopStream => OnStopStream(clients, sid)
    case Disconnect => OnDisconnect(clients, sid).clients
    case CleanupTimer => Cleanup(clients, sid)
  }

  /** Every handler except `connect` leaves the table unchanged for a session
      id it does not know. */
  lemma UnknownSessionUnchanged(clients: Clients, sid: Sid, e: Event)
    requires sid !in clients && !e.Connect?
    ensures Handle(clients, sid, e) == clients
  {
  }

  /** Pausing and resuming are idempotent. */
  lemma PauseResumeIdempotent(clients: Clients, sid: Sid)
    ensures OnPauseStream(OnPauseStream(clients, sid), sid) == OnPauseStream(clients, sid)
    ensures OnResumeStream(OnResumeStream(clients, sid), sid) == OnResumeStream(clients, sid)
  {
  }

  /** A second `start_stream` while the first worker is still alive does not
      start another one. */
  lemma SecondStartKeepsWorker(clients: Clients, sid: Sid, firstAlive: bool)
    requires sid in clients
    ensures var first := OnStartStream(clients, sid, firstAlive);
            first.Started? && var second := OnStartStream(first.clients, sid, true);
            second.Started? && !second.spawned
  {
  }

  function Concat(chunks: seq<seq<byte>>): seq<byte> {
    if chunks == [] then [] else chunks[0] + Concat(chunks[1..])
  }

  function AudioEvents(chunks: seq<seq<byte>>): (r: seq<Event>)
    ensures |r| == |chunks|
    ensures forall i :: 0 <= i < |r| ==> r[i] == AudioChunk(Binary(chunks[i]))
  {
    if chunks == [] then [] else [AudioChunk(Binary(chunks[0]))] + AudioEvents(chunks[1..])
  }

  /** Applies a sequence of events in order. */
  function Run(clients: Clients, sid: Sid, events: seq<Event>): Clients
    decreases |events|
  {
    if events == [] then clients else Run(Handle(clients, sid, events[0]), sid, events[1..])
  }

  /** After any number of binary chunks, the buffer of a known session is the
      previous buffer followed by the chunks in arrival order, flags and
      worker unchanged. */
  lemma {:induction false} AudioChunksAppend(clients: Clients, sid: Sid, chunks: seq<seq<byte>>)
    requires sid in clients
    ensures var r := Run(clients, sid, AudioEvents(chunks));
            sid in r && r[sid] == clients[sid].(rawBuffer := clients[sid].rawBuffer + Concat(chunks))
    ensures SameExcept(clients, Run(clients, sid, AudioEvents(chunks)), sid)
    decreases |chunks|
  {
    if chunks != [] {
      var c1 := Handle(clients, sid, AudioChunk(Binary(chunks[0])));
      assert AudioEvents(chunks)[1..] == AudioEvents(chunks[1..]);
      AudioChunksAppend(c1, sid, chunks[1..]);
      assert clients[sid].rawBuffer + chunks[0] + Concat(chunks[1..])
          == clients[sid].rawBuffer + Concat(chunks);
    }
  }
}

=== FILE: text.dfy ===
/** Character-level string operations shared by the Python backend and the
    TypeScript/JavaScript front end: whitespace trimming (`str.strip`,
    `String.prototype.trim`), substring search, `split`, `join` and `replace`. */
module Text {
  import opened Wrappers

  /** The ASCII whitespace both runtimes strip: space, tab, line feed,
      vertical tab, form feed and carriage return.  Python's `str.strip`
      also strips the separators U+001C-U+001F, and JavaScript's `trim`
      does not; neither those nor non-ASCII spaces are modelled. */
  predicate IsSpace(c: char) {
    c == ' ' || c == '\t' || c == '\n' || c == '\r' || c == '\U{000B}' || c == '\U{000C}'
  }

  /** Every character of `s` in `[i, j)` is whitespace. */
  predicate SpaceRun(s: string, i: nat, j: nat)
    requires j <= |s|
  {
    forall k :: i <= k < j ==> IsSpace(s[k])
  }

  predicate AllSpace(s: string) {
    SpaceRun(s, 0, |s|)
  }

  /** The first index at or after `i` that holds no whitespace (`|s|` if none). */
  function SkipSpaces(s: string, i: nat): (j: nat)
    requires i <= |s|
    ensures i <= j <= |s| && SpaceRun(s, i, j)
    ensures j < |s| ==> !IsSpace(s[j])
    decreases |s| - i
  {
    if i < |s| && IsSpace(s[i]) then SkipSpaces(s, i + 1) else i
  }

  /** The index just after the last non-whitespace character before `j`
      (`0` if none). */
  function SkipSpacesBack(s: string, j: nat): (i: nat)
    requires j <= |s|
    ensures i <= j && SpaceRun(s, i, j)
    ensures 0 < i ==> !IsSpace(s[i - 1])
  {
    if 0 < j && IsSpace(s[j - 1]) then SkipSpacesBack(s, j - 1) else j
  }

  lemma {:induction false} SkipSpacesAt(s: string, i: nat, j: nat)
    requires i <= j <= |s| && SpaceRun(s, i, j) && (j < |s| ==> !IsSpace(s[j]))
    ensures SkipSpaces(s, i) == j
    decreases j - i
  {
    if i < j {
      assert IsSpace(s[i]);
      SkipSpacesAt(s, i + 1, j);
    }
  }

  lemma {:induction false} SkipSpacesBackAt(s: string, i: nat, j: nat)
    requires i <= j <= |s| && SpaceRun(s, i, j) && (0 < i ==> !IsSpace(s[i - 1]))
    ensures SkipSpacesBack(s, j) == i
    decreases j - i
  {
    if i < j {
      assert IsSpace(s[j - 1]);
      SkipSpacesBackAt(s, i, j - 1);
    }
  }

  /** `r` is `s` with its leading and trailing whitespace removed: a slice of
      `s` whose outside is all whitespace and whose ends are not. */
  ghost predicate IsTrimOf(s: string, r: string) {
    exists a, b :: TrimWindow(s, r, a, b)
  }

  /** `r` is the slice `s[a..b]`, with only whitespace outside it and none
      at its ends. */
  predicate TrimWindow(s: string, r: string, a: nat, b: nat) {
    a <= b <= |s| && r == s[a..b] && SpaceRun(s, 0, a) && SpaceRun(s, b, |s|)
      && (a == b || (!IsSpace(s[a]) && !IsSpace(s[b - 1])))
  }

  /** Python `str.strip()` / JavaScript `trim()` on the whitespace above. */
  function Trim(s: string): (r: string)
    ensures IsTrimOf(s, r)
    ensures |r| <= |s|
    ensures r == [] || (!IsSpace(r[0]) && !IsSpace(r[|r| - 1]))
  {
    var a := SkipSpaces(s, 0);
    if a == |s| then
      assert TrimWindow(s, [], a, a);
      []
    else
      var b := SkipSpacesBack(s, |s|);
      assert TrimWindow(s, s[a..b], a, b);
      s[a..b]
  }

  /** JavaScript `trimStart()`. */
  function TrimStart(s: string): (r: string)
    ensures |r| <= |s| && r == s[|s| - |r|..]
    ensures SpaceRun(s, 0, |s| - |r|)
    ensures r == [] || !IsSpace(r[0])
  {
    s[SkipSpaces(s, 0)..]
  }

  /** JavaScript `trimEnd()`. */
  function TrimEnd(s: string): (r: string)
    ensures |r| <= |s| && r == s[..|r|]
    ensures SpaceRun(s, |r|, |s|)
    ensures r == [] || !IsSpace(r[|r| - 1])
  {
    s[..SkipSpacesBack(s, |s|)]
  }

  /** The slice between whitespace-only borders, with non-space ends, is the trim. */
  lemma TrimAt(s: string, a: nat, b: nat)
    requires a <= b <= |s| && SpaceRun(s, 0, a) && SpaceRun(s, b, |s|)
    requires a == b || (!IsSpace(s[a]) && !IsSpace(s[b - 1]))
    ensures Trim(s) == s[a..b]
  {
    if a == b {
      assert SpaceRun(s, 0, |s|) by {
        forall k | 0 <= k < |s| ensures IsSpace(s[k]) {
          if k < a { assert SpaceRun(s, 0, a); } else { assert SpaceRun(s, b, |s|); }
        }
      }
      SkipSpacesAt(s, 0, |s|);
    } else {
      SkipSpacesAt(s, 0, a);
      SkipSpacesBackAt(s, b, |s|);
    }
  }

  /** `IsTrimOf` is a specification, not just a constraint: it admits
      exactly one result, the one `Trim` computes. */
  lemma TrimOfIsTrim(s: string, r: string)
    requires IsTrimOf(s, r)
    ensures r == Trim(s)
  {
    var a, b :| TrimWindow(s, r, a, b);
    TrimAt(s, a, b);
  }

  /** Trimming yields the empty string exactly for blank input. */
  lemma TrimEmptyIffBlank(s: string)
    ensures Trim(s) == [] <==> AllSpace(s)
  {
    var a := SkipSpaces(s, 0);
    if a < |s| {
      assert !IsSpace(s[a]);
    }
  }

  /** A string without surrounding whitespace is its own trim. */
  lemma TrimOfTrimmed(s: string)
    requires s == [] || (!IsSpace(s[0]) && !IsSpace(s[|s| - 1]))
    ensures Trim(s) == s
  {
    if s == [] {
      TrimAt(s, 0, 0);
    } else {
      TrimAt(s, 0, |s|);
    }
  }

  /** Every character of the trim comes from the source. */
  lemma TrimChars(s: string, c: char)
    requires c in Trim(s)
    ensures c in s
  {
    TrimOfChars(s, Trim(s), c);
  }

  lemma TrimOfChars(s: string, r: string, c: char)
    requires IsTrimOf(s, r) && c in r
    ensures c in s
  {
    var a, b :| TrimWindow(s, r, a, b);
    SliceChars(s, a, b, c);
  }

  lemma SliceChars(s: string, a: nat, b: nat, c: char)
    requires a <= b <= |s| && c in s[a..b]
    ensures c in s
  {
    var i :| 0 <= i < b - a && s[a..b][i] == c;
    assert s[a + i] == c;
  }

  predicate IsBlank(s: string) {
    Trim(s) == []
  }

  /** `pat` occurs in `s` starting at index `i`. */
  predicate OccursAt(s: string, pat: string, i: int) {
    0 <= i && i + |pat| <= |s| && s[i..i + |pat|] == pat
  }

  /** JavaScript `s.indexOf(pat, from)` for `from <= |s|`: the first
      occurrence of `pat` at or after `from`. */
  function IndexOf(s: string, pat: string, from: nat): (r: Option<nat>)
    ensures r.Some? ==> from <= r.value && OccursAt(s, pat, r.value)
    ensures r.Some? ==> forall j :: from <= j < r.value ==> !OccursAt(s, pat, j)
    ensures r.None? ==> forall j :: from <= j ==> !OccursAt(s, pat, j)
    decreases |s| - from
  {
    if from + |pat| > |s| then None
    else if s[from..from + |pat|] == pat then Some(from)
    else IndexOf(s, pat, from + 1)
  }

  /** JavaScript `s.includes(pat)`. */
  predicate Contains(s: string, pat: string) {
    IndexOf(s, pat, 0).Some?
  }

  /** `s.split(sep)[1]` in JavaScript: the text between the first and the
      second occurrence of a non-empty separator (or to the end of `s`),
      `None` (JavaScript `undefined`) when `sep` does not occur. */
  function SecondSegment(s: string, sep: string): (r: Option<string>)
    requires |sep| > 0
    ensures r.Some? <==> Contains(s, sep)
    // it starts right after the first occurrence and runs up to the next
    // occurrence, or to the end when there is none
    ensures r.Some? ==>
              var e := IndexOf(s, sep, 0).value + |sep|;
              var q := e + |r.value|;
              q <= |s| && r.value == s[e..q]
              && (q == |s| || OccursAt(s, sep, q))
              && (forall j :: e <= j < q ==> !OccursAt(s, sep, j))
    ensures r.Some? ==> forall j :: 0 <= j && j + |sep| <= |r.value| ==> !OccursAt(r.value, sep, j)
  {
    match IndexOf(s, sep, 0)
    case None => None
    case Some(p) =>
      var e := p + |sep|;
      var q := match IndexOf(s, sep, e) case Some(q) => q case None => |s|;
      NoOccurrenceInSlice(s, sep, e, q);
      Some(s[e..q])
  }

  /** A slice of `s` over which `sep` never starts inside `s` holds no `sep`. */
  lemma NoOccurrenceInSlice(s: string, sep: string, e: nat, q: nat)
    requires |sep| > 0 && e <= q <= |s|
    requires forall j :: e <= j < q ==> !OccursAt(s, sep, j)
    ensures forall j :: 0 <= j && j + |sep| <= |s[e..q]| ==> !OccursAt(s[e..q], sep, j)
  {
    var seg := s[e..q];
    forall j | 0 <= j && j + |sep| <= |seg| ensures !OccursAt(seg, sep, j) {
      SliceOfSlice(s, e, q, j, |sep|);
      assert !OccursAt(s, sep, e + j);
    }
  }

  lemma SliceOfSlice(s: string, e: nat, q: nat, j: nat, n: nat)
    requires e <= q <= |s| && j + n <= q - e
    ensures s[e..q][j..j + n] == s[e + j..e + j + n]
  {
    var x, y := s[e..q][j..j + n], s[e + j..e + j + n];
    forall k | 0 <= k < n ensures x[k] == y[k] {
      assert x[k] == s[e + j + k];
    }
  }

  /** With exactly one occurrence of `sep`, at `p`, the second segment is
      everything after it. */
  lemma SecondSegmentLast(s: string, sep: string, p: nat)
    requires |sep| > 0 && OccursAt(s, sep, p)
    requires forall j :: 0 <= j < p ==> !OccursAt(s, sep, j)
    requires forall j :: p + |sep| <= j ==> !OccursAt(s, sep, j)
    ensures SecondSegment(s, sep) == Some(s[p + |sep|..])
  {
    assert IndexOf(s, sep, 0) == Some(p);
    assert IndexOf(s, sep, p + |sep|).None?;
    assert s[p + |sep|..|s|] == s[p + |sep|..];
  }

  /** An occurrence in a slice is an occurrence in the whole. */
  lemma ContainsSlice(s: string, i: nat, j: nat, pat: string)
    requires i <= j <= |s|
    requires Contains(s[i..j], pat)
    ensures Contains(s, pat)
  {
    var r := IndexOf(s[i..j], pat, 0);
    var p := r.value;
    assert OccursAt(s[i..j], pat, p);
    SliceOfSlice(s, i, j, p, |pat|);
    assert OccursAt(s, pat, i + p);
  }

  /** Cutting off a whitespace-only tail does not change the trimmed text. */
  lemma TrimDropSpaces(s: string, b: nat)
    requires b <= |s| && SpaceRun(s, b, |s|)
    ensures Trim(s[..b]) == Trim(s)
  {
    var a := SkipSpaces(s, 0);
    if a == |s| {
      DropFromBlank(s, s[..b], b);
    } else {
      var e := SkipSpacesBack(s, |s|);
      TrimAt(s, a, e);
      SpaceTailAfter(s, b, e - 1);
      DropAfterTrim(s, s[..b], a, e, b);
    }
  }

  /** A non-space character lies before a whitespace-only tail. */
  lemma SpaceTailAfter(s: string, b: nat, k: nat)
    requires b <= |s| && SpaceRun(s, b, |s|) && k < |s| && !IsSpace(s[k])
    ensures k < b
  {
  }

  lemma DropFromBlank(s: string, u: string, b: nat)
    requires b <= |s| && u == s[..b] && SpaceRun(s, 0, |s|)
    ensures Trim(u) == [] && Trim(s) == []
  {
    assert SpaceRun(u, 0, |u|) by {
      forall k | 0 <= k < |u| ensures IsSpace(u[k]) {
        assert u[k] == s[k];
      }
    }
    TrimEmptyIffBlank(u);
    TrimEmptyIffBlank(s);
  }

  lemma DropAfterTrim(s: string, u: string, a: nat, e: nat, b: nat)
    requires a < e <= b <= |s| && u == s[..b] && SpaceRun(s, 0, a) && SpaceRun(s, e, |s|)
    requires !IsSpace(s[a]) && !IsSpace(s[e - 1])
    ensures Trim(u) == s[a..e]
  {
    assert SpaceRun(u, 0, a) by {
      forall k | 0 <= k < a ensures IsSpace(u[k]) {
        assert u[k] == s[k];
      }
    }
    assert SpaceRun(u, e, |u|) by {
      forall k | e <= k < |u| ensures IsSpace(u[k]) {
        assert u[k] == s[k];
      }
    }
    assert u[a] == s[a] && u[e - 1] == s[e - 1];
    assert u[a..e] == s[a..e];
    TrimAt(u, a, e);
  }

  /** Trimming `a + m + q`, where `m` does not start with whitespace and
      `q` is not blank, removes exactly the leading whitespace of `a` and
      the trailing whitespace of `q`. */
  lemma TrimAround(a: string, m: string, q: string)
    requires |m| > 0 && !IsSpace(m[0])
    requires !IsBlank(q)
    ensures Trim(a + m + q) == TrimStart(a) + m + TrimEnd(q)
  {
    NonBlankEnd(q);
    TrimAroundAt(a, m, q, a + m + q, SkipSpaces(a, 0), SkipSpacesBack(q, |q|));
  }

  /** A string that is not blank has a non-space character before its
      trailing whitespace. */
  lemma NonBlankEnd(q: string)
    requires !IsBlank(q)
    ensures 0 < SkipSpacesBack(q, |q|)
  {
  }

  lemma TrimAroundAt(a: string, m: string, q: string, s: string, la: nat, e: nat)
    requires |m| > 0 && !IsSpace(m[0]) && s == a + m + q
    requires la <= |a| && SpaceRun(a, 0, la) && (la < |a| ==> !IsSpace(a[la]))
    requires 0 < e <= |q| && SpaceRun(q, e, |q|) && !IsSpace(q[e - 1])
    ensures Trim(s) == a[la..] + m + q[..e]
  {
    AroundFront(a, m, q, s, la);
    AroundBack(a, m, q, s, e);
    TrimAt(s, la, |a| + |m| + e);
    AroundSlice(a, m, q, s, la, e);
  }

  lemma AroundFront(a: string, m: string, q: string, s: string, la: nat)
    requires |m| > 0 && !IsSpace(m[0]) && s == a + m + q
    requires la <= |a| && SpaceRun(a, 0, la) && (la < |a| ==> !IsSpace(a[la]))
    ensures SpaceRun(s, 0, la) && !IsSpace(s[la])
  {
    forall k | 0 <= k < la ensures IsSpace(s[k]) {
      assert s[k] == a[k];
    }
    if la < |a| {
      assert s[la] == a[la];
    } else {
      assert s[la] == m[0];
    }
  }

  lemma AroundBack(a: string, m: string, q: string, s: string, e: nat)
    requires s == a + m + q
    requires 0 < e <= |q| && SpaceRun(q, e, |q|) && !IsSpace(q[e - 1])
    ensures SpaceRun(s, |a| + |m| + e, |s|) && !IsSpace(s[|a| + |m| + e - 1])
  {
    var n := |a| + |m|;
    forall k | n + e <= k < |s| ensures IsSpace(s[k]) {
      assert s[k] == q[k - n];
    }
    assert s[n + e - 1] == q[e - 1];
  }

  lemma AroundSlice(a: string, m: string, q: string, s: string, la: nat, e: nat)
    requires s == a + m + q && la <= |a| && e <= |q|
    ensures s[la..|a| + |m| + e] == a[la..] + m + q[..e]
  {
  }

  predicate StartsWith(s: string, prefix: string) {
    |prefix| <= |s| && s[..|prefix|] == prefix
  }

  /** JavaScript `s.replace(pat, rep)` with a string pattern: only the first
      occurrence is replaced. */
  function ReplaceFirst(s: string, pat: string, rep: string): (r: string)
    ensures !Contains(s, pat) ==> r == s
    ensures Contains(s, pat) ==>
              var i := IndexOf(s, pat, 0).value;
              i + |pat| <= |s| && r == s[..i] + rep + s[i + |pat|..]
    ensures StartsWith(s, pat) ==> r == rep + s[|pat|..]
  {
    match IndexOf(s, pat, 0)
    case None => s
    case Some(i) => s[..i] + rep + s[i + |pat|..]
  }

  /** Replacement happens at the first occurrence, wherever it is. */
  lemma ReplaceFirstAt(s: string, pat: string, rep: string, i: nat)
    requires OccursAt(s, pat, i)
    requires forall j :: 0 <= j < i ==> !OccursAt(s, pat, j)
    ensures ReplaceFirst(s, pat, rep) == s[..i] + rep + s[i + |pat|..]
  {
    assert IndexOf(s, pat, 0) == Some(i);
  }

  /** JavaScript `xs.join(sep)` / Python `sep.join(xs)`. */
  function Join(xs: seq<string>, sep: string): (r: string)
    ensures |xs| == 1 ==> r == xs[0]
    ensures |xs| == 0 ==> r == []
  {
    if |xs| == 0 then []
    else if |xs| == 1 then xs[0]
    else xs[0] + sep + Join(xs[1..], sep)
  }

  /** The first `n` characters (JavaScript `s.substring(0, n)`). */
  function Prefix(s: string, n: nat): (r: string)
    ensures |r| <= n && |r| <= |s|
    ensures StartsWith(s, r)
    ensures |s| <= n ==> r == s
  {
    if |s| <= n then s else s[..n]
  }

  /** The first `n` elements (JavaScript `xs.slice(0, n)`). */
  function Take<T>(xs: seq<T>, n: nat): (r: seq<T>)
    ensures |r| <= n && |r| <= |xs|
    ensures r == xs[..|r|]
    ensures |xs| <= n ==> r == xs
  {
    if |xs| <= n then xs else xs[..n]
  }
}

=== FILE: toggle_header.dfy ===
/** The toggle header of frontend/src/components/ToggleHeader.tsx: the set
    of selected toggles ("eye", "hide", "commands", ...) as an ordered list,
    the window settings it drives, and the global shortcut commands. */
module ToggleHeader {
  const Eye := "eye"
  const Hide := "hide"
  const Commands := "commands"

  /** `isSelected`. */
  predicate IsSelected(selected: seq<string>, v: string) {
    v in selected
  }

  /** `prev.filter(x => x !== v)`. */
  function Remove(xs: seq<string>, v: string): (r: seq<string>)
    ensures v !in r
    ensures forall x :: x != v ==> (x in r <==> x in xs)
    ensures |r| <= |xs|
  {
    if xs == [] then []
    else if xs[0] == v then Remove(xs[1..], v)
    else [xs[0]] + Remove(xs[1..], v)
  }

  /** Filtering distributes over concatenation, so the kept values keep
      their relative order and multiplicity. */
  lemma {:induction false} RemoveConcat(a: seq<string>, b: seq<string>, v: string)
    ensures Remove(a + b, v) == Remove(a, v) + Remove(b, v)
    decreases |a|
  {
    if a == [] {
      assert a + b == b;
    } else {
      assert (a + b)[0] == a[0] && (a + b)[1..] == a[1..] + b;
      RemoveConcat(a[1..], b, v);
    }
  }

  /** A single value is dropped exactly when it is the removed one. */
  lemma RemoveSingle(x: string, v: string)
    ensures x == v ==> Remove([x], v) == []
    ensures x != v ==> Remove([x], v) == [x]
  {
    assert [x][1..] == [];
  }

  /** The functional update of a shortcut toggle: remove `v` when present,
      append it otherwise. */
  function Toggle(selected: seq<string>, v: string): seq<string> {
    if v in selected then Remove(selected, v) else selected + [v]
  }

  /** A toggle flips the membership of its own value and of no other. */
  lemma ToggleFlips(selected: seq<string>, v: string)
    ensures IsSelected(Toggle(selected, v), v) <==> !IsSelected(selected, v)
    ensures forall x :: x != v ==> (IsSelected(Toggle(selected, v), x) <==> IsSelected(selected, x))
  {
  }

  /** Other values keep their relative order. */
  lemma {:induction false} ToggleKeepsOthers(selected: seq<string>, v: string)
    ensures Remove(Toggle(selected, v), v) == Remove(selected, v)
  {
    if v in selected {
      RemoveIdempotent(selected, v);
    } else {
      RemoveAppend(selected, v);
    }
  }

  lemma {:induction false} RemoveIdempotent(xs: seq<string>, v: string)
    ensures Remove(Remove(xs, v), v) == Remove(xs, v)
    decreases |xs|
  {
    if xs != [] {
      RemoveIdempotent(xs[1..], v);
      if xs[0] != v {
        assert ([xs[0]] + Remove(xs[1..], v))[1..] == Remove(xs[1..], v);
      }
    }
  }

  lemma {:induction false} RemoveAppend(xs: seq<string>, v: string)
    ensures Remove(xs + [v], v) == Remove(xs, v)
    decreases |xs|
  {
    if xs == [] {
      assert xs + [v] == [v];
      assert [v][1..] == [];
    } else {
      assert (xs + [v])[1..] == xs[1..] + [v];
      RemoveAppend(xs[1..], v);
    }
  }

  /** Toggling twice restores the selection as a set, and restores the list
      itself when the value was not selected. */
  lemma ToggleTwice(selected: seq<string>, v: string)
    ensures forall x :: IsSelected(Toggle(Toggle(selected, v), v), x) <==> IsSelected(selected, x)
    ensures v !in selected ==> Toggle(Toggle(selected, v), v) == selected
  {
    ToggleFlips(selected, v);
    ToggleFlips(Toggle(selected, v), v);
    if v !in selected {
      RemoveAppend(selected, v);
      RemoveAbsent(selected, v);
    }
  }

  /** When the value is absent, removing it changes nothing. */
  lemma {:induction false} RemoveAbsent(xs: seq<string>, v: string)
    requires v !in xs
    ensures Remove(xs, v) == xs
    decreases |xs|
  {
    if xs != [] {
      assert v !in xs[1..];
      RemoveAbsent(xs[1..], v);
      assert [xs[0]] + xs[1..] == xs;
    }
  }

  /** The window settings the selection drives through its effects. */
  datatype Settings = Settings(invisible: bool, hiddenFromTaskbar: bool, commandsEnabled: bool)

  function SettingsOf(selected: seq<string>): Settings {
    Settings(IsSelected(selected, Eye), IsSelected(selected, Hide), IsSelected(selected, Commands))
  }

  /** What a command does besides changing the selection: calling one of the
      globals registered by other components, or minimising the window. */
  datatype Call = Global(name: string) | ToggleWindowMinimize(isMinimized: bool)

  /** `handleCommandExecution`; `globals` are the names that are defined on
      `window` and `canMinimize` whether the desktop bridge offers it. */
  function HandleCommand(selected: seq<string>, command: string, globals: set<string>,
                         canMinimize: bool, isMinimized: bool): (r: (seq<string>, seq<Call>))
    ensures command == "toggle-invisibility-shortcut" ==> r == (Toggle(selected, Eye), [])
    ensures command == "toggle-taskbar-shortcut" ==> r == (Toggle(selected, Hide), [])
    ensures command != "toggle-invisibility-shortcut" && command != "toggle-taskbar-shortcut" ==> r.0 == selected
    ensures |r.1| <= 1
    ensures forall name :: Global(name) in r.1 ==> name in globals
  {
    match command
    case "toggle-invisibility-shortcut" => (Toggle(selected, Eye), [])
    case "toggle-taskbar-shortcut" => (Toggle(selected, Hide), [])
    case "toggle-voice-recording" => (selected, GlobalIfPresent("__TOGGLE_VOICE_RECORDING__", globals))
    case "toggle-system-recording" => (selected, GlobalIfPresent("__TOGGLE_SYSTEM_RECORDING__", globals))
    case "toggle-both-recording" => (selected, GlobalIfPresent("__TOGGLE_BOTH_RECORDING__", globals))
    case "toggle-keyboard-shortcut" => (selected, GlobalIfPresent("__TOGGLE_KEYBOARD__", globals))
    case "toggle-screen-analyzer" => (selected, GlobalIfPresent("__TOGGLE_SCREEN_ANALYZER__", globals))
    case "clear-chat-messages" => (selected, GlobalIfPresent("__CLEAR_CHAT_MESSAGES__", globals))
    case "toggle-window-minimize" => (selected, if canMinimize then [ToggleWindowMinimize(isMinimized)] else [])
    case _ => (selected, [])
  }

  function GlobalIfPresent(name: string, globals: set<string>): (r: seq<Call>)
    ensures r == [] || r == [Global(name)]
    ensures Global(name) in r <==> name in globals
  {
    if name in globals then [Global(name)] else []
  }

  /** The invisibility shortcut flips invisibility and no other setting; the
      taskbar shortcut likewise flips only the taskbar setting. */
  lemma ShortcutFlipsOneSetting(selected: seq<string>, globals: set<string>, canMinimize: bool, isMinimized: bool)
    ensures var s := SettingsOf(HandleCommand(selected, "toggle-invisibility-shortcut", globals, canMinimize, isMinimized).0);
            s == SettingsOf(selected).(invisible := !SettingsOf(selected).invisible)
    ensures var s := SettingsOf(HandleCommand(selected, "toggle-taskbar-shortcut", globals, canMinimize, isMinimized).0);
            s == SettingsOf(selected).(hiddenFromTaskbar := !SettingsOf(selected).hiddenFromTaskbar)
  {
    ToggleFlips(selected, Eye);
    ToggleFlips(selected, Hide);
  }
}

=== FILE: transcriber.dfy ===
/** One iteration of the per-session transcription worker
    (`transcribe_loop` in backend/transcribe.py) as a step function over the
    session table.  The worker re-transcribes its whole retained buffer on
    every pass and suppresses a transcript equal to the last one it emitted.
    `Step` uses the corrected pass, which cuts the buffer back to the last
    30 seconds of audio after a pass that yields text; as written that cut
    fails on an immutable `bytes` buffer (`TranscriptionPassAsWritten`). */
module Transcriber {
  import opened Wrappers
  import opened Text
  import opened SessionStore

  const SampleRate := 16000
  const SampleWidthBytes := 2
  const ChannelCount := 1
  const MaxBufferSeconds := 30
  /** 30 s of 16 kHz mono 16-bit audio. */
  const MaxBufferBytes := SampleRate * SampleWidthBytes * ChannelCount * MaxBufferSeconds

  /** What the speech model yields for a WAV-wrapped buffer: the text of its
      segments, or an exception. */
  datatype Segments = Segments(texts: seq<string>) | RecognizerError

  /** The speech model, uninterpreted. */
  type Recognizer = seq<byte> -> Segments

  /** The outcome of `analyze_audio_buffer`: a transcript, or an exception
      that propagates to the loop. */
  datatype Recognition = Recognized(text: string) | Failed

  /** `analyze_audio_buffer`: empty audio yields `""` without consulting the
      model; otherwise the segment texts joined by single spaces, stripped. */
  function AnalyzeAudioBuffer(raw: seq<byte>, model: Recognizer): (r: Recognition)
    ensures raw == [] ==> r == Recognized("")
    ensures raw != [] ==> (r.Failed? <==> model(raw).RecognizerError?)
    ensures r.Recognized? ==> r.text == [] || (!IsSpace(r.text[0]) && !IsSpace(r.text[|r.text| - 1]))
    ensures r.Recognized? && raw != [] ==> IsTrimOf(Join(model(raw).texts, " "), r.text)
  {
    if raw == [] then Recognized("")
    else
      match model(raw)
      case RecognizerError => Failed
      case Segments(texts) =>
        var t := Trim(Join(texts, " "));
        assert IsTrimOf(Join(texts, " "), t);
        Recognized(t)
  }

  /** The worker's local variables: `committed_text`, which this version
      never updates, and `last_buffer_text`, the last transcript emitted. */
  datatype WorkerLocal = WorkerLocal(committed: string, lastText: string)

  const InitialLocal := WorkerLocal("", "")

  /** What the loop does after an iteration. */
  datatype Next = Sleep | Exit

  /** One iteration: the new table, the new locals, where the loop goes,
      whether the recognizer ran, and the `transcript` event emitted, if any. */
  datatype StepResult = StepResult(clients: Clients, local: WorkerLocal, next: Next,
                                   recognized: bool, emitted: Option<string>)

  /** The transcript sent to the client: committed text and current window text. */
  function FullText(committed: string, current: string): string {
    Trim(committed + " " + current)
  }

  /** While nothing has been committed, the transcript is the window text itself. */
  lemma FullTextUncommitted(current: string)
    requires current == [] || (!IsSpace(current[0]) && !IsSpace(current[|current| - 1]))
    ensures FullText("", current) == Trim(current)
    ensures FullText("", current) == current
  {
    assert "" + " " + current == " " + current;
    TrimSpaceBefore(current);
    TrimOfTrimmed(current);
  }

  lemma TrimSpaceBefore(current: string)
    requires current == [] || (!IsSpace(current[0]) && !IsSpace(current[|current| - 1]))
    ensures Trim(" " + current) == current
  {
    var s := " " + current;
    assert IsSpace(s[0]);
    if current == [] {
      TrimAt(s, 1, 1);
    } else {
      assert s[1] == current[0] && s[|s| - 1] == current[|current| - 1];
      assert s[1..] == current;
      TrimAt(s, 1, |s|);
    }
  }

  /** The buffer, locals and emission produced by one recognition pass. */
  datatype PassResult = PassResult(buffer: seq<byte>, local: WorkerLocal, emitted: Option<string>)

  /** Step 4 of the loop: on non-empty text, trim the buffer to its last
      `MaxBufferBytes` bytes and emit the transcript if it differs from the
      last one; a failed or empty recognition changes nothing. */
  function TranscriptionPass(buffer: seq<byte>, local: WorkerLocal, result: Recognition): (r: PassResult)
    ensures result.Failed? || result.text == [] ==> r == PassResult(buffer, local, None)
    ensures result.Recognized? && result.text != [] && |buffer| > MaxBufferBytes ==>
              |r.buffer| == MaxBufferBytes && buffer == buffer[..|buffer| - MaxBufferBytes] + r.buffer
    ensures |buffer| <= MaxBufferBytes ==> r.buffer == buffer
    ensures r.emitted.Some? <==>
              result.Recognized? && result.text != [] && FullText(local.committed, result.text) != local.lastText
    ensures r.emitted.Some? ==> r.emitted.value == FullText(local.committed, result.text)
                                && r.local == local.(lastText := r.emitted.value)
    ensures r.emitted.None? ==> r.local == local
  {
    match result
    case Failed => PassResult(buffer, local, None)
    case Recognized(text) =>
      if text == [] then PassResult(buffer, local, None)
      else
        var full := FullText(local.committed, text);
        var trimmed := if |buffer| > MaxBufferBytes then buffer[|buffer| - MaxBufferBytes..] else buffer;
        if full != local.lastText then PassResult(trimmed, local.(lastText := full), Some(full))
        else PassResult(trimmed, local, None)
  }

  /** Step 4 as written when the stored buffer is an immutable `bytes`
      object, as it is from `start_stream` on (`+=` on `bytes` makes new
      `bytes`): deleting its prefix raises `TypeError`, which the loop
      catches before the emission, so an oversized buffer is neither
      trimmed nor reported. */
  function TranscriptionPassAsWritten(buffer: seq<byte>, local: WorkerLocal, result: Recognition, immutable: bool): (r: PassResult)
    ensures immutable && |buffer| > MaxBufferBytes ==> r == PassResult(buffer, local, None)
    ensures !(immutable && |buffer| > MaxBufferBytes) ==> r == TranscriptionPass(buffer, local, result)
  {
    if immutable && |buffer| > MaxBufferBytes && result.Recognized? && result.text != [] then PassResult(buffer, local, None)
    else TranscriptionPass(buffer, local, result)
  }

  /** As written, once a `bytes` buffer outgrows the window no new
      transcript is emitted and the buffer keeps growing; the corrected pass
      emits the new text and cuts the buffer back to the window. */
  lemma OversizedBufferSilenced(buffer: seq<byte>, local: WorkerLocal, text: string)
    requires |buffer| > MaxBufferBytes && text != [] && FullText(local.committed, text) != local.lastText
    ensures var w := TranscriptionPassAsWritten(buffer, local, Recognized(text), true);
            w.emitted.None? && w.buffer == buffer && w.local == local
    ensures var c := TranscriptionPass(buffer, local, Recognized(text));
            c.emitted == Some(FullText(local.committed, text)) && |c.buffer| == MaxBufferBytes
  {
  }

  /** `a` is what remains of `b` after a prefix is cut off. */
  predicate IsSuffix(a: seq<byte>, b: seq<byte>) {
    |a| <= |b| && b[|b| - |a|..] == a
  }

  /** One iteration of `transcribe_loop` for session `sid`.  The Python
      snapshot of the buffer aliases the stored one; the model reads the
      table once, so both agree. */
  function Step(clients: Clients, sid: Sid, local: WorkerLocal, model: Recognizer): (r: StepResult)
    // a session removed from the table ends the worker, untouched
    ensures sid !in clients ==> r == StepResult(clients, local, Exit, false, None)
    // pausing wins over stopping: no recognition, no emission
    ensures sid in clients && clients[sid].paused ==> r == StepResult(clients, local, Sleep, false, None)
    // an empty buffer is never transcribed; it ends the worker only when stopped
    ensures sid in clients && !clients[sid].paused && clients[sid].rawBuffer == [] ==>
              r == StepResult(clients, local, if clients[sid].stopped then Exit else Sleep, false, None)
    // a stopped session with audio gets one last pass, then its buffer is cleared
    ensures sid in clients && !clients[sid].paused && clients[sid].rawBuffer != [] ==> r.recognized
    ensures sid in clients && !clients[sid].paused && clients[sid].stopped ==>
              r.next == Exit && sid in r.clients && r.clients[sid].rawBuffer == []
    ensures r.next == Exit <==> sid !in clients || (!clients[sid].paused && clients[sid].stopped)
    // only the buffer of this session may change, and it only loses a prefix
    ensures SameExcept(clients, r.clients, sid)
    ensures sid in clients ==> sid in r.clients && r.clients[sid] == clients[sid].(rawBuffer := r.clients[sid].rawBuffer)
    ensures sid in clients ==> IsSuffix(r.clients[sid].rawBuffer, clients[sid].rawBuffer)
    // a pass over audio: it emits what the recognition pass emits, and a
    // running session keeps the pass's buffer
    ensures sid in clients && !clients[sid].paused && clients[sid].rawBuffer != [] ==>
              var pass := TranscriptionPass(clients[sid].rawBuffer, local, AnalyzeAudioBuffer(clients[sid].rawBuffer, model));
              r.emitted == pass.emitted && r.local == pass.local
              && r.clients[sid].rawBuffer == (if clients[sid].stopped then [] else pass.buffer)
    // the 30 s window: trimmed exactly when a running session's pass yields text
    ensures sid in clients && !clients[sid].paused && !clients[sid].stopped && |clients[sid].rawBuffer| > MaxBufferBytes ==>
              var rec := AnalyzeAudioBuffer(clients[sid].rawBuffer, model);
              |r.clients[sid].rawBuffer| == (if rec.Recognized? && rec.text != [] then MaxBufferBytes else |clients[sid].rawBuffer|)
    // emission: only on a pass, only new text, and the locals remember it
    ensures r.emitted.Some? ==> r.recognized && r.emitted.value != local.lastText && r.local.lastText == r.emitted.value
    ensures r.emitted.None? ==> r.local == local
    ensures r.local.committed == local.committed
  {
    if sid !in clients then StepResult(clients, local, Exit, false, None)
    else
      var state := clients[sid];
      if state.paused then StepResult(clients, local, Sleep, false, None)
      else if state.rawBuffer == [] && state.stopped then
        UpdateOnly(clients, sid, state.(rawBuffer := []));
        StepResult(clients[sid := state.(rawBuffer := [])], local, Exit, false, None)
      else if state.rawBuffer == [] then StepResult(clients, local, Sleep, false, None)
      else
        var pass := TranscriptionPass(state.rawBuffer, local, AnalyzeAudioBuffer(state.rawBuffer, model));
        var buffer := if state.stopped then [] else pass.buffer;
        UpdateOnly(clients, sid, state.(rawBuffer := buffer));
        StepResult(clients[sid := state.(rawBuffer := buffer)], pass.local, if state.stopped then Exit else Sleep, true, pass.emitted)
  }

  lemma UpdateOnly(clients: Clients, sid: Sid, v: Session)
    ensures SameExcept(clients, clients[sid := v], sid)
  {
  }

  /** With nothing committed, an emitted transcript is never empty. */
  lemma EmittedNonEmpty(clients: Clients, sid: Sid, local: WorkerLocal, model: Recognizer)
    requires sid in clients && local.committed == []
    ensures var r := Step(clients, sid, local, model);
            r.emitted.Some? ==> r.emitted.value != [] && r.emitted.value == r.local.lastText
  {
    var state := clients[sid];
    if !state.paused && state.rawBuffer != [] {
      var rec := AnalyzeAudioBuffer(state.rawBuffer, model);
      if rec.Recognized? {
        FullTextUncommitted(rec.text);
      }
    }
  }

  /** Duplicate suppression: two consecutive passes that recognize the same
      text emit at most once. */
  lemma NoDuplicateEmission(b1: seq<byte>, b2: seq<byte>, local: WorkerLocal, text: string)
    ensures var first := TranscriptionPass(b1, local, Recognized(text));
            TranscriptionPass(b2, first.local, Recognized(text)).emitted.None?
  {
  }

  /** A recognizer failure never ends a running session's worker and
      leaves its buffer and locals untouched. */
  lemma RecognizerFailureContinues(clients: Clients, sid: Sid, local: WorkerLocal, model: Recognizer)
    requires sid in clients && !clients[sid].paused && !clients[sid].stopped && clients[sid].rawBuffer != []
    requires model(clients[sid].rawBuffer).RecognizerError?
    ensures Step(clients, sid, local, model) == StepResult(clients, local, Sleep, true, None)
  {
    assert clients[sid := clients[sid].(rawBuffer := clients[sid].rawBuffer)] == clients;
  }

  /** Steps the worker while it keeps sleeping, up to `fuel + 1` iterations
      (`fuel == 0` still runs one), with no handler running in between.  The
      result carries only the last iteration's `recognized` and `emitted`;
      what earlier iterations emitted is not kept.  However many iterations
      run, only this session's buffer changes, it only loses a prefix, and
      the committed text stays as it was. */
  function RunWorker(clients: Clients, sid: Sid, local: WorkerLocal, model: Recognizer, fuel: nat): (r: StepResult)
    ensures SameExcept(clients, r.clients, sid)
    ensures sid in clients ==> sid in r.clients && r.clients[sid] == clients[sid].(rawBuffer := r.clients[sid].rawBuffer)
    ensures sid in clients ==> IsSuffix(r.clients[sid].rawBuffer, clients[sid].rawBuffer)
    ensures r.local.committed == local.committed
    decreases fuel
  {
    var r := Step(clients, sid, local, model);
    if r.next == Exit || fuel == 0 then r else RunWorker(r.clients, sid, r.local, model, fuel - 1)
  }

  /** Drain: a stopped, unpaused session ends its worker on the very next
      iteration, after exactly one recognition pass if it held audio, and
      leaves an empty buffer behind. */
  lemma DrainOnStop(clients: Clients, sid: Sid, local: WorkerLocal, model: Recognizer, fuel: nat)
    requires sid in clients && clients[sid].stopped && !clients[sid].paused
    ensures var r := RunWorker(clients, sid, local, model, fuel);
            r.next == Exit && (r.recognized <==> clients[sid].rawBuffer != [])
            && sid in r.clients && r.clients[sid].rawBuffer == []
  {
  }

  /** The worker never emits while its session stays paused, however long it
      runs.  `RunWorker` runs no handler between iterations, so this is the
      paused clause of `Step` repeated: each iteration finds the table it
      was given and sleeps.  A handler that unpauses the session in between
      is outside this lemma. */
  lemma {:induction false} PausedNeverEmits(clients: Clients, sid: Sid, local: WorkerLocal, model: Recognizer, fuel: nat)
    requires sid in clients && clients[sid].paused
    ensures RunWorker(clients, sid, local, model, fuel) == StepResult(clients, local, Sleep, false, None)
    decreases fuel
  {
    if fuel > 0 {
      PausedNeverEmits(clients, sid, local, model, fuel - 1);
    }
  }
}

=== FILE: wrappers.dfy ===
/** Optional values: the model's stand-in for Python's `None`, JavaScript's
    `null`/`undefined` and an absent dictionary key. */
module Wrappers {

  datatype Option<+T> = None | Some(value: T) {

    /** The value, or `default` when there is none (Python's `d.get(k, default)`). */
    function GetOr(default: T): T {
      match this
      case Some(v) => v
      case None => default
    }
  }
}
